=== FILE: README.md ===
# DormHelper in Dafny

DormHelper is a small dormitory assistant. It keeps one JSON document, `dorm_data.json`, with four parts:

- a `config` holding the date the program was last opened;
- the duty `roster`, a list of names whose head is on duty today;
- the deadlines `ddls`, records of `id`, `date` and `title`;
- the `shopping` list, a dictionary from item name to count.

Two front ends edit this document. The command line, class `DormHelper`, has the commands `add`, `list`, `delete`, `shop add|list|clear`, `duty next`, `save` and `quit`. The Tk window, class `DormHelperGUI`, has tabs for deadlines, shopping and duty. It delegates some of its work to `DormHelper` and does the rest itself. Both front ends pull the file through git at start-up. The command line saves and pushes on `save` and `quit`, and on Ctrl-C. Both front ends also save, without pushing, while they are being constructed, when the stored date stamp is not today's (dorm_assistant.py:21-22, 79-80). After construction, the window saves and pushes only through its Save Data button, or through its Exit button once the exit is confirmed. Closing the window any other way saves nothing.

The model treats the document as an immutable value (`Store.Document`). Every command is a pure function from the document to a new document, or to an error that leaves the document unchanged (`Results.Result`). Some inputs are outside the program: the current date, the git outcomes, the file's contents, the selected list line and the answers to confirmation dialogs. Each of these is a parameter.

Python's own behaviour is modelled where the program depends on it:

- `str.split`, `str.strip`, `in`, `" ".join`, `int()` and `str()`;
- string comparison, as used by `sorted`;
- `datetime.strptime(s, "%Y-%m-%d")`, as its regular-expression stage followed by `datetime.date`'s range check;
- `date.isoformat()`.

A dictionary is a sequence of items with distinct names, kept in insertion order.

Modules, one per file:

| module | file | contents |
|---|---|---|
| `Results` | results.dfy | `Option`, `Result` and the error cases |
| `Strings` | strings.dfy | Python string operations and string order |
| `Dates` | dates.dfy | `strptime("%Y-%m-%d")`, calendar validity, ISO format |
| `Sequences` | sequences.dfy | `list.pop(k)` and `sorted(..., key=...)` |
| `Store` | store.dfy | the document, its defaults, loading and saving |
| `Deadlines` | deadlines.dfy | adding, the date-sorted view, listing, deleting by id |
| `Shopping` | shopping.dfy | the dictionary operations, display lines and their parsing |
| `Roster` | roster.dfy | rotation and the roster edit box |
| `DormHelper` | helper.dfy | the command-line commands, daily stamp and sync |
| `DormGui` | gui.dfy | the data effects of the window's buttons |

## Model

| member | source | states |
|---|---|---|
| Strings.Find | dorm_helper_gui.py:195 | the leftmost occurrence of the separator at or after a position, and that none occurs before it |
| Strings.Contains | dorm_assistant.py:112 | `q in s`: the empty string occurs in every string, and only strings no longer than `s` occur in it |
| Strings.JoinShape | dorm_assistant.py:89 | `sep.join(parts)` is as long as the parts plus one separator between each two, starts with the first part and ends with the last |
| Strings.Split | dorm_helper_gui.py:195 | `str.split(sep)` yields at least one piece; no piece contains the separator; the pieces joined with the separator give back the string; the first piece ends at the leftmost occurrence of the separator |
| Strings.SplitAt | dorm_helper_gui.py:195 | splitting at the leftmost occurrence gives the text before it followed by the split of the text after it, so every cut is leftmost |
| Strings.SplitJoin | dorm_helper_gui.py:261-266 | splitting a newline join of names without newlines gives back the names |
| Strings.Strip | dorm_helper_gui.py:106-107 | the result is an infix that neither starts nor ends with whitespace; it is empty exactly when the text is all whitespace; a trimmed text is unchanged |
| Strings.StripTrailing | dorm_helper_gui.py:265 | stripping a trimmed text followed by whitespace gives the text |
| Strings.LessEqReflexive | dorm_assistant.py:106 | string order is reflexive |
| Strings.LessEqTotal | dorm_assistant.py:106 | any two strings are ordered one way or the other |
| Strings.LessEqTransitive | dorm_assistant.py:106 | string order is transitive |
| Strings.LessEqAntisymmetric | dorm_assistant.py:106 | strings ordered both ways are equal |
| Strings.FirstDifference | dorm_assistant.py:106 | a string that is larger at the first differing character is not `<=` |
| Strings.NatToString | dorm_helper_gui.py:183 | `str(n)` is a non-empty run of decimal digits whose value is `n` |
| Strings.ParseInt | dorm_assistant.py:120 | `int(s)` succeeds exactly when the stripped text, less one optional leading `+` or `-`, is digits grouped by single underscores, at most 4300 of them; so it refuses blank text; plain ASCII digits within the limit, with or without surrounding whitespace, read as their decimal value, and with a leading `-` as its negation; a negative result comes from a leading `-` |
| Strings.ForeignCharacterRefused | dorm_assistant.py:120 | `int(s)` raises when the stripped text holds a character other than a digit, `_`, `+` or `-` |
| Strings.SplitOnce | dorm_helper_gui.py:195 | a string splits into a single piece exactly when it lacks the separator |
| Strings.IntToString | dorm_assistant.py:149 | `str(i)` is non-empty, starts with `-` exactly for a negative integer, and is digits after that |
| Strings.ParseIntRoundTrip | dorm_assistant.py:120 | `int(str(n)) == n` for every integer of at most 4300 digits |
| Sequences.RemoveAt | dorm_assistant.py:122 | `pop(k)` removes one element, keeps the others in order and removes exactly one copy of `s[k]` |
| Sequences.SortBy | dorm_assistant.py:106 | `sorted` keeps the length |
| Sequences.InsertPermutes | dorm_assistant.py:106 | one insertion step adds exactly one copy of the inserted element |
| Sequences.SortByPermutes | dorm_assistant.py:106 | `sorted` keeps every element exactly as many times as it occurs |
| Sequences.SortByMembers | dorm_assistant.py:106 | everything in the sorted list was in the input |
| Sequences.SortBySorted | dorm_assistant.py:106 | the keys of the sorted list never decrease |
| Sequences.SortByStable | dorm_assistant.py:106 | elements with equal keys keep their input order |
| Sequences.InsertStable | dorm_assistant.py:106 | inserting an element ranked below all others keeps equal keys in rank order |
| Store.Load | dorm_assistant.py:25-35 | a parsed file gives its document; a missing file, or one `json` cannot decode, gives the default document |
| Store.Save | dorm_assistant.py:38-41 | loading the file written gives back the document saved |
| Dates.DaysInMonth | dorm_assistant.py:91-95 | 28 to 31 days, with 29 in February exactly in leap years |
| Dates.IsCalendarDate | dorm_assistant.py:92 | `datetime.date`'s range check: days at most 31, February at most 29, and 29 February only in a leap year |
| Dates.ParseDate | dorm_assistant.py:91-95 | an accepted text is 8 to 10 characters, starting with four digits and `-`; the year is the value of those digits, at most 9999; the month and day are in range |
| Dates.ValidDate | dorm_assistant.py:92 | a text `strptime` accepts has 8 to 10 characters and a four-digit year from 1 on, and its day exists in that month of that year |
| Dates.IsoFormat | dorm_assistant.py:77 | `isoformat()` writes ten characters |
| Dates.PaddedFields | dorm_assistant.py:91-95 | a `DDDD-DD-DD` text parses, if at all, to the year, month and day its digit fields spell, and passes `strptime` exactly when that is a calendar date |
| Dates.DayPastMonthEndRejected | dorm_assistant.py:91-95 | `2025-04-31` is refused although each field is in range, while `2025-03-31` is accepted |
| Dates.IsoFormatParses | dorm_assistant.py:77-92 | every date `isoformat()` writes parses back to that date and passes `strptime` |
| Dates.LeapYearDay | dorm_assistant.py:91-95 | `YYYY-02-29` always matches the pattern, and is a real date exactly when the year is a leap year from 1 on |
| Dates.LeapDays | dorm_assistant.py:91-95 | 29 February is accepted in 2024 and refused in 2025 |
| Dates.CenturyLeapDays | dorm_assistant.py:91-95 | 29 February is refused in 1900 and accepted in 2000 |
| Dates.ShortFieldsAccepted | dorm_assistant.py:91-95 | one-digit months and days, and a space-padded day, are accepted |
| Dates.YearZeroRejected | dorm_assistant.py:91-95 | year 0000 matches the pattern but is refused as a date |
| Dates.OutOfRangeFieldsRejected | dorm_assistant.py:91-95 | month 13 and day 32 are refused |
| Dates.OtherShapesRejected | dorm_assistant.py:91-95 | other separators and trailing characters are refused |
| Dates.UnpaddedOrderIsNotChronological | dorm_assistant.py:92-106 | two accepted dates sort by string against their month order |
| Deadlines.Add | dorm_assistant.py:97-101 | the stored entries are kept, followed by one new entry with id `len + 1`, the date and the title |
| Deadlines.AddKeepsIdsPositional | dorm_assistant.py:97-101 | adding to a list with ids 1..n gives ids 1..n+1 |
| Deadlines.PositionalIdsAreUnique | dorm_assistant.py:98 | positional ids are distinct |
| Deadlines.DeleteThenAddRepeatsId | dorm_assistant.py:97-122 | deleting any entry but the last and then adding one gives two entries the same id |
| Deadlines.SortedView | dorm_assistant.py:106 | the sorted view has as many entries as the stored list |
| Deadlines.SortedViewSpec | dorm_assistant.py:106 | the view is a permutation of the stored list, ordered by date, and entries with equal dates keep their stored order |
| Deadlines.Matches | dorm_assistant.py:112 | the empty query matches every entry; a matching query is no longer than the title or the date |
| Deadlines.Select | dorm_assistant.py:111-113 | every printed line is an accepted entry under its number in the view, and the numbers increase |
| Deadlines.SelectComplete | dorm_assistant.py:111-113 | every accepted entry is printed under its number |
| Deadlines.List | dorm_assistant.py:104-113 | the lines printed are exactly the matching entries of the date-sorted view, each under its place in the whole view, in order |
| Deadlines.EmptyQueryListsAll | dorm_assistant.py:105-113 | with no words, every entry is listed as 1, 2, 3, ... in date order |
| Deadlines.FindId | dorm_helper_gui.py:141 | the first stored position holding the id, or none when no entry has it |
| Deadlines.DeleteShownById | dorm_helper_gui.py:132-143 | an empty list is kept; a shown line removes one entry, the first stored one with the shown entry's id |
| Deadlines.DeleteShown | dorm_helper_gui.py:136-142 | the entry shown at the selected line is removed, and nothing else |
| Deadlines.DeleteByIdIsDeleteShown | dorm_helper_gui.py:136-142 | with unique ids, deleting by id is deleting the shown entry |
| Deadlines.DuplicateIdDeletesAnotherEntry | dorm_helper_gui.py:140-142 | after a command-line delete and add, the window deletes an entry other than the one selected |
| Shopping.IndexFrom | dorm_assistant.py:137 | the first position holding the name, or none |
| Shopping.Add | dorm_assistant.py:132-141 | the name's count is one more; a new name is appended last with count 1; an existing name keeps its position, and all names keep their order; other names keep their counts; keys stay unique and counts positive |
| Shopping.AddTimesCount | dorm_assistant.py:137-140 | `n` additions raise the count by `n` and touch no other name |
| Shopping.Remove | dorm_helper_gui.py:196 | `del` raises `KeyError` exactly for an absent name; otherwise that one item is removed and every other name keeps its count |
| Shopping.RemoveLookups | dorm_helper_gui.py:196 | removing an item keeps every other name's count, and with unique keys the name is gone |
| Shopping.Label | dorm_helper_gui.py:183 | a line starts with `[`, digits, `]` and a space, with no `x` in it |
| Shopping.ItemLineShape | dorm_assistant.py:149 | a line is the label `[i] `, then the name, the separator and the count's digits, each at its place |
| Shopping.CliLines | dorm_assistant.py:143-149 | "(No items)" for an empty list; otherwise one line per item, in insertion order, numbered from 1, as `[k] name × count` after a three-space indent |
| Shopping.AddNewListedLast | dorm_assistant.py:140-149 | a new item is listed last, under the next number, and the earlier lines are unchanged |
| Shopping.SortedItems | dorm_helper_gui.py:181 | the window's order is a permutation of the items, sorted by name |
| Shopping.GuiLines | dorm_helper_gui.py:174-183 | the placeholder alone for an empty list, otherwise one line per item in name order |
| Shopping.ParseName | dorm_helper_gui.py:195 | no name exactly when the text before the first ` x ` has no `] `; a name read contains no `] ` |
| Shopping.LineHead | dorm_helper_gui.py:195 | the text before the first ` x ` is the label and the name, unless ` x ` occurs in the padded name, in which case it is shorter |
| Shopping.RenderedNameRoundTrip | dorm_helper_gui.py:183-195 | parsing an item's line gives back its name exactly when the name is clean |
| Shopping.GuiDeleteItem | dorm_helper_gui.py:185-197 | no selection or an empty list changes nothing; otherwise the list is unchanged, or one item is removed, or the parse fails |
| Shopping.DeleteDisplayed | dorm_helper_gui.py:185-197 | the item shown at the selected line is removed and nothing else: the rest keep their insertion order, as `del` keeps it |
| Shopping.DisplayedRemoval | dorm_helper_gui.py:196 | removing a listed item by its name removes that very item, from its own position |
| Shopping.GuiDeleteIsDeleteDisplayed | dorm_helper_gui.py:185-197 | with distinct clean names and no placeholder text, the window deletes the item selected |
| Shopping.BoxXDeletesBox | dorm_helper_gui.py:195-196 | selecting "Box x" deletes "Box" |
| Shopping.PlaceholderTextBlocksDelete | dorm_helper_gui.py:191-192 | an item named "List is empty" cannot be deleted |
| Roster.Rotate | dorm_assistant.py:168-174 | refused below two people; otherwise the same people, shifted left by one, with the head moved to the back |
| Roster.RotateTimesShift | dorm_assistant.py:172-173 | `n` rotations within one round start the roster at position `n` |
| Roster.FullCycle | dorm_assistant.py:172-173 | as many rotations as people restore the roster |
| Roster.Periodic | dorm_assistant.py:172-173 | a full round more of rotations changes nothing |
| Roster.RotateTimesAdd | dorm_assistant.py:172-173 | `a + b` rotations are `a` followed by `b` |
| Roster.SmallRosterFixed | dorm_assistant.py:169-171 | a roster of fewer than two never changes |
| Roster.Current | dorm_helper_gui.py:221 | the head of the roster, or "None" |
| Roster.CurrentAfterRotations | dorm_helper_gui.py:240-246 | after `m` rotations within a round, person `m` is on duty |
| Roster.NonBlank | dorm_helper_gui.py:266 | the names are non-empty and trimmed, no more than the lines; none exactly when every line is blank |
| Roster.NonBlankFiltered | dorm_helper_gui.py:266 | the names are the stripped lines at increasing positions, and every line at no such position is blank |
| Roster.RosterFromText | dorm_helper_gui.py:264-272 | refused exactly when the box is blank; otherwise non-empty, trimmed names that are the non-blank lines of the stripped text, stripped, in order |
| Roster.BlankLinesBlankText | dorm_helper_gui.py:265-269 | all-blank lines join into a blank text |
| Roster.EditRoundTrip | dorm_helper_gui.py:260-266 | opening the editor on tidy names and pressing OK keeps the roster |
| Roster.TidyNamesKept | dorm_helper_gui.py:266 | tidy names pass the blank-line filter unchanged |
| DormHelper.AddDdl | dorm_assistant.py:85-102 | too few words or a date `strptime` refuses are errors; otherwise one entry is appended with id `len + 1` and the remaining words joined as title; ids stay positional |
| DormHelper.AddTodayAccepted | dorm_assistant.py:77-95 | today's ISO date is always accepted |
| DormHelper.Query | dorm_assistant.py:105 | no words give the empty query, and one word is the query itself |
| DormHelper.ListDdls | dorm_assistant.py:104-113 | the lines are exactly the entries of the sorted view that the joined words match, each under its number in the view, in increasing order |
| DormHelper.ListAllNumbered | dorm_assistant.py:104-113 | with no words, every entry is listed, the `k`-th of the sorted view as `k` |
| DormHelper.DeleteDdl | dorm_assistant.py:115-127 | no argument, a non-number and an out-of-range number are three distinct errors; otherwise the stored entry at `n - 1` is popped |
| DormHelper.DeleteByNumeral | dorm_assistant.py:115-122 | `delete str(n)` removes the `n`-th stored entry, for every `n` in range of at most 4300 digits |
| DormHelper.NonNumeralRefused | dorm_assistant.py:119-127 | a word holding a letter or any other character `int()` never reads is refused as not numeric, and nothing is deleted |
| DormHelper.DeleteAbcRefused | dorm_assistant.py:119-127 | `delete abc` is refused as not numeric |
| DormHelper.LongNumeralRefused | dorm_assistant.py:119-127 | a numeral of more than 4300 digits is refused as not numeric, whatever its value, and nothing is deleted |
| DormHelper.DeleteListed | dorm_assistant.py:115-127 | no argument and a non-number are errors as in `delete`; a number is read against the listing |
| DormHelper.DeleteShownNumber | dorm_assistant.py:115-127 | refused exactly when no line is listed under the number; otherwise the stored entry at the position that the view lists as `n` is popped, and nothing else changes |
| DormHelper.DeleteListedRemovesListedEntry | dorm_assistant.py:104-127 | for every `n` in range of at most 4300 digits, `list` prints line `n` for some entry, and deleting by the listed number `str(n)` removes exactly that entry |
| DormHelper.DeleteNumberIsNotListedNumber | dorm_assistant.py:104-127 | with stored entries out of date order, `delete 1` removes an entry other than the one listed as 1 |
| DormHelper.ShopAdd | dorm_assistant.py:132-141 | no argument is refused; otherwise the first word's count is one more; a new word is appended last with count 1, an existing one keeps its place; other counts, the other fields and positive counts are kept |
| DormHelper.ShopList | dorm_assistant.py:143-149 | "(No items)" for an empty list; otherwise one line `[k] name × count` per item, indented, in insertion order |
| DormHelper.ShopClear | dorm_assistant.py:151-153 | the shopping list is empty and nothing else changes |
| DormHelper.ShopClearIdempotent | dorm_assistant.py:151-153 | clearing twice is clearing once |
| DormHelper.DutyNext | dorm_assistant.py:168-174 | refused below two people; otherwise the roster is the people after the first, in order, followed by the first; nothing else changes |
| DormHelper.CheckDailyReminder | dorm_assistant.py:76-80 | the stamp is today's ISO date; the file is saved exactly when the stamp changed; otherwise nothing changes |
| DormHelper.DailyReminderIdempotent | dorm_assistant.py:76-80 | a second check on the same day changes and saves nothing |
| DormHelper.Open | dorm_assistant.py:20-22 | opening keeps the file's deadlines, roster and shopping list; the stamp becomes today's ISO date; the file is saved exactly when the loaded stamp differed; without a parsed file, the defaults stamped with today |
| DormHelper.StartupSync | dorm_assistant.py:57-65 | a successful pull reloads the file; a failed one keeps the document |
| DormHelper.ShutdownSync | dorm_assistant.py:68-73 | `git add` is always tried first; when it succeeds, the commit follows and then the push, and nothing else; when it fails, nothing more is run; nothing is pulled |
| DormHelper.SaveAndSync | dorm_assistant.py:258-260 | the file written loads back as the document, then shutdown sync runs |
| DormHelper.SaveOpenRoundTrip | dorm_assistant.py:20-41 | saving and reopening on the same day gives the same document and saves nothing |
| DormGui.AddDdl | dorm_helper_gui.py:105-121 | an empty stripped field and a refused date are errors that change nothing; otherwise one entry is added with the stripped date and title |
| DormGui.AddDelegationSucceeds | dorm_helper_gui.py:105-117 | once the window's checks pass, the delegated command succeeds |
| DormGui.DeleteDdl | dorm_helper_gui.py:132-143 | no selection or an empty list changes nothing; a selection past the end raises `IndexError`; otherwise the first stored entry with the shown entry's id is removed and nothing else changes |
| DormGui.DeleteDdlRemovesSelected | dorm_helper_gui.py:136-142 | with unique ids, the entry removed is the one selected |
| DormGui.RotateDuty | dorm_helper_gui.py:240-248 | refused exactly below two people, as `duty next` |
| DormGui.SaveRoster | dorm_helper_gui.py:264-275 | refused exactly when the box is blank; otherwise the roster becomes the non-blank lines of the stripped text, stripped, in order, and nothing else changes |
| DormGui.EditorKeepsRoster | dorm_helper_gui.py:260-275 | opening the editor and pressing OK keeps a roster of tidy names |
| DormGui.AddShoppingItem | dorm_helper_gui.py:166-172 | blank text changes nothing; otherwise the stripped name's count is one more, appended last when new and kept in place otherwise; other counts and fields are kept; keys stay unique and counts positive |
| DormGui.DeleteShoppingItem | dorm_helper_gui.py:185-197 | no selection changes nothing; otherwise at most one item is removed and nothing else changes |
| DormGui.ClearShoppingList | dorm_helper_gui.py:199-205 | an empty list or a declined confirmation changes nothing; otherwise the list is emptied |
| DormGui.CurrentDuty | dorm_helper_gui.py:61 | the head of the roster, or "None" |
| DormGui.SyncData | dorm_helper_gui.py:282-288 | a successful pull reloads the file; a failed one keeps the document |

## Left out

- Printing, the Tk widgets, message boxes and redrawing are not modelled. Only the data each button changes is modelled.
- The JSON encoding is not modelled. The file is `Missing`, `Corrupt` or a parsed document, and `Save` writes the document itself.
- `load_data` returns `DEFAULT_DATA.copy()`, a shallow copy. All four parts are shared with the module constant: the `config` dictionary, the roster list, the `ddls` list and the shopping dictionary. Edits to them leak into later defaults; `check_daily_reminder` writes the stamp into the shared `config` in place (dorm_assistant.py:79). Values in the model cannot alias, so this is not modelled.
- The `git` subprocess calls are not modelled. Their outcomes are boolean parameters; the pulled file is a parameter; `ShutdownSync` returns the commands attempted.
- `datetime.date.today()` is a `Date` parameter.
- Store.Load: only a missing file, a file that `json` cannot decode and a well-shaped document are modelled. The other failures surface in different places, and none is modelled:
  - A file that is not UTF-8 raises `UnicodeDecodeError` inside `load_data`, which catches only `json.JSONDecodeError` (dorm_assistant.py:27-32).
  - `load_data` returns whatever `json.load` yields and reads no key. JSON without `config` or `last_opened` raises `KeyError` in `check_daily_reminder` (dorm_assistant.py:78), while the helper is being constructed.
  - JSON without `roster` or `ddls` raises when the command line's start-up banner reads them (dorm_assistant.py:214-216), before the command loop and outside its handler. The window's constructor reads them too (dorm_helper_gui.py:61-65).
  - JSON without `shopping` raises `KeyError` at start-up in the window: its constructor reads `data['shopping']` in `update_reminder_tab` (dorm_helper_gui.py:23, 73) and in `refresh_shopping_list` (dorm_helper_gui.py:164, 176). On the command line it raises only when a shopping command reads it; the command loop's `except Exception` (dorm_assistant.py:275-276) prints that error and carries on.
- Closing the window other than through its Exit button discards the session's edits, because the window registers no close handler. Window events are not modelled; `DormHelper.SaveAndSync` models the Save Data and Exit buttons.
- The read–eval loop and its dispatch are not modelled. It splits the command line on whitespace and catches every exception. The commands are modelled on their argument lists.
- `duty_list`, `show_help`, the reminder tab and the start-up banner only print. They are not modelled, beyond `Roster.Current`.
- `DormGui.DeleteShoppingItem`: states only that at most one item is removed. `Shopping.GuiDeleteItem` and `Shopping.GuiDeleteIsDeleteDisplayed` say which item.
- Strings.IntToString: `str()` refuses integers of more than 4300 digits, but the model renders every integer. The values rendered are item counts and list numbers, which grow by one per command and stay far below that bound.
- `int()` and the `\d` of `strptime` also accept non-ASCII Unicode decimal digits. The model accepts ASCII digits only. It does model the sign, the underscores between digits, the surrounding whitespace and the 4300-digit limit of `int()`.
- Where the documented behaviour and the code differ, the model follows the code:
  - the command-line `delete` uses the stored position, not the listed number;
  - the `list` filter is case-sensitive;
  - `save_data` always writes, because there is no change flag;
  - `shutdown_sync` pushes even when the commit fails;
  - the window's `del` raises `KeyError` for a missing name.

## Findings

| source | as written | input that shows it | evidently intended | confidence | as-written member | corrected member |
|---|---|---|---|---|---|---|
| dorm_helper_gui.py:140-142 | the shown entry is found again by `id`, taking the first stored entry with that id | stored Paper(1, 2025-12-20) and Trip(2, 2026-01-10); command-line `delete 1`, then `add 2025-12-25 Exam`; select the first line (Exam) | remove the entry shown on the selected line | not executed; high | Deadlines.DuplicateIdDeletesAnotherEntry | Deadlines.DeleteShown |
| dorm_helper_gui.py:195 | the name is read back with `split(" x ")[0].split("] ")[1]` | items "Box" and "Box x"; select line 2, `[2] Box x x 1` | delete the item on the selected line | not executed; high | Shopping.BoxXDeletesBox | Shopping.DeleteDisplayed |
| dorm_helper_gui.py:191-192 | the empty-list test looks for "List is empty" in the text of line 0 | one item named "List is empty"; select it | delete the selected item; refuse only when the list is empty | not executed; high | Shopping.PlaceholderTextBlocksDelete | Shopping.DeleteDisplayed |
| dorm_assistant.py:120-122 | `delete n` pops stored position `n - 1`, but `list` numbers entries by date order | stored Exam(2026-01-15), Paper(2025-12-20); `list` shows Paper as [1]; `delete 1` removes Exam | delete the entry listed as [n] | not executed; medium | DormHelper.DeleteNumberIsNotListedNumber | DormHelper.DeleteListed |

The corrected members carry the intended properties:

- `Deadlines.DeleteShown` removes exactly the entry shown.
- `Deadlines.DeleteByIdIsDeleteShown` shows the id lookup agrees with it when ids are unique.
- `Shopping.DeleteDisplayed` removes exactly the item shown.
- `Shopping.GuiDeleteIsDeleteDisplayed` gives the conditions under which the window agrees with it.
- `DormHelper.DeleteShownNumber` removes exactly the entry listed under the number.
- `DormHelper.DeleteListedRemovesListedEntry` proves that listing and deleting by the listed number agree.

=== FILE: dates.dfy ===
/** Date validation as `datetime.datetime.strptime(s, "%Y-%m-%d")` performs it.

    `strptime` first matches the whole string against the regular expression
    the format compiles to -- `%Y` is exactly four digits, `%m` is
    `1[0-2]|0[1-9]|[1-9]`, `%d` is `3[01]|[12]\d|0[1-9]|[1-9]| [1-9]` -- and
    raises `ValueError` when the match fails or leaves characters over
    ("unconverted data remains").  It then builds `datetime.date(year, month,
    day)`, which rejects year 0 and days past the end of the month in the
    proleptic Gregorian calendar.  Both stages are modelled; only ASCII digits
    are.
 */
module Dates {
  import opened Results
  import opened Strings

  datatype Date = Date(year: int, month: int, day: int)

  predicate IsLeapYear(y: int) {
    y % 4 == 0 && (y % 100 != 0 || y % 400 == 0)
  }

  function DaysInMonth(y: int, m: int): (n: int)
    requires 1 <= m <= 12
    ensures 28 <= n <= 31
    ensures m == 2 ==> (n == 29 <==> IsLeapYear(y))
  {
    if m == 2 then (if IsLeapYear(y) then 29 else 28)
    else if m == 4 || m == 6 || m == 9 || m == 11 then 30
    else 31
  }

  /** What `datetime.date(year, month, day)` accepts (MINYEAR = 1, MAXYEAR = 9999). */
  predicate IsCalendarDate(d: Date)
    ensures IsCalendarDate(d) ==> d.day <= 31
    ensures IsCalendarDate(d) && d.month == 2 ==> d.day <= 29
    ensures IsCalendarDate(d) && d.month == 2 && d.day == 29 ==> IsLeapYear(d.year)
  {
    1 <= d.year <= 9999 && 1 <= d.month <= 12 && 1 <= d.day <= DaysInMonth(d.year, d.month)
  }

  /** The `%m` group at the start of `t`: its value and how many characters it takes. */
  function MonthField(t: string): (r: Option<(int, nat)>)
    ensures r.Some? ==> 1 <= r.value.0 <= 12 && 1 <= r.value.1 <= 2 && r.value.1 <= |t|
  {
    if |t| >= 2 && t[0] == '1' && '0' <= t[1] <= '2' then Some((10 + DigitValue(t[1]), 2))
    else if |t| >= 2 && t[0] == '0' && '1' <= t[1] <= '9' then Some((DigitValue(t[1]), 2))
    else if |t| >= 1 && '1' <= t[0] <= '9' then Some((DigitValue(t[0]), 1))
    else None
  }

  /** The `%d` group, last in the format: the first alternative that matches
      is taken, and it must use up the rest of the string. */
  function DayField(t: string): (r: Option<int>)
    ensures r.Some? ==> 1 <= r.value <= 31 && 1 <= |t| <= 2
  {
    if |t| >= 2 && t[0] == '3' && '0' <= t[1] <= '1' then
      (if |t| == 2 then Some(30 + DigitValue(t[1])) else None)
    else if |t| >= 2 && '1' <= t[0] <= '2' && IsDigit(t[1]) then
      (if |t| == 2 then Some(10 * DigitValue(t[0]) + DigitValue(t[1])) else None)
    else if |t| >= 2 && t[0] == '0' && '1' <= t[1] <= '9' then
      (if |t| == 2 then Some(DigitValue(t[1])) else None)
    else if |t| >= 1 && '1' <= t[0] <= '9' then
      (if |t| == 1 then Some(DigitValue(t[0])) else None)
    else if |t| >= 2 && t[0] == ' ' && '1' <= t[1] <= '9' then
      (if |t| == 2 then Some(DigitValue(t[1])) else None)
    else None
  }

  /** The regular-expression stage of `strptime(s, "%Y-%m-%d")`. */
  function ParseDate(s: string): (r: Option<Date>)
    ensures r.Some? ==> 8 <= |s| <= 10 && s[4] == '-'
    ensures r.Some? ==> && AllDigits(s[..4]) && r.value.year == DigitsValue(s[..4])
                        && 0 <= r.value.year <= 9999 && 1 <= r.value.month <= 12 && 1 <= r.value.day <= 31
  {
    if |s| < 5 || !AllDigits(s[..4]) || s[4] != '-' then None
    else
      DigitsValue4(s[..4]);
      match MonthField(s[5..])
      case None => None
      case Some((m, w)) =>
        if |s| <= 5 + w || s[5 + w] != '-' then None
        else match DayField(s[6 + w..])
          case None => None
          case Some(d) => Some(Date(DigitsValue(s[..4]), m, d))
  }

  /** `strptime(s, "%Y-%m-%d")` returns without raising `ValueError`. */
  predicate ValidDate(s: string)
    ensures ValidDate(s) ==> 8 <= |s| <= 10 && AllDigits(s[..4]) && 1 <= DigitsValue(s[..4])
    ensures ValidDate(s) ==> && ParseDate(s).Some?
                             && ParseDate(s).value.day <= DaysInMonth(DigitsValue(s[..4]), ParseDate(s).value.month)
  {
    ParseDate(s).Some? && IsCalendarDate(ParseDate(s).value)
  }

  // ---------------------------------------------------------------------
  // date.isoformat()
  // ---------------------------------------------------------------------

  function Pad2(n: nat): string
    requires n < 100
  {
    [DigitChar(n / 10), DigitChar(n % 10)]
  }

  function Pad4(n: nat): string
    requires n < 10000
  {
    [DigitChar(n / 10 / 10 / 10), DigitChar(n / 10 / 10 % 10), DigitChar(n / 10 % 10), DigitChar(n % 10)]
  }

  /** `date.isoformat()`: `%04d-%02d-%02d`. */
  function IsoFormat(d: Date): (s: string)
    requires IsCalendarDate(d)
    ensures |s| == 10
  {
    Pad4(d.year) + "-" + Pad2(d.month) + "-" + Pad2(d.day)
  }

  /** The value of a four-digit year field, digit by digit. */
  lemma DigitsValue4(s: string)
    requires |s| == 4 && AllDigits(s)
    ensures DigitsValue(s) == 10 * (10 * (10 * DigitValue(s[0]) + DigitValue(s[1])) + DigitValue(s[2])) + DigitValue(s[3])
  {
    var s1, s2, s3 := s[..1], s[..2], s[..3];
    assert s1[..0] == [];
    assert DigitsValue(s1) == DigitValue(s[0]);
    assert s2[..1] == s1;
    assert DigitsValue(s2) == 10 * DigitValue(s[0]) + DigitValue(s[1]);
    assert s3[..2] == s2;
    assert s[..3] == s3;
  }

  lemma Pad4Value(n: nat)
    requires n < 10000
    ensures AllDigits(Pad4(n)) && DigitsValue(Pad4(n)) == n
  {
    DigitsValue4(Pad4(n));
  }

  /** Every calendar date, written the way `date.today().isoformat()` writes
      it, is accepted by `strptime` and parses back to the same date. */
  lemma IsoFormatParses(d: Date)
    requires IsCalendarDate(d)
    ensures ParseDate(IsoFormat(d)) == Some(d)
    ensures ValidDate(IsoFormat(d))
  {
    var s := IsoFormat(d);
    Pad4Value(d.year);
    assert s[..4] == Pad4(d.year);
    assert s[5..] == Pad2(d.month) + "-" + Pad2(d.day);
    assert MonthField(s[5..]) == Some((d.month, 2));
    assert s[8..] == Pad2(d.day);
  }

  /** The value of a two-digit field. */
  lemma DigitsValue2(s: string)
    requires |s| == 2 && AllDigits(s)
    ensures DigitsValue(s) == 10 * DigitValue(s[0]) + DigitValue(s[1])
  {
    var s1 := s[..1];
    assert s1[..0] == [];
    assert DigitsValue(s1) == DigitValue(s[0]);
  }

  /** A text of the shape `DDDD-DD-DD` parses, if at all, to the date its
      three digit fields spell, and it is valid exactly when that is a
      calendar date. */
  lemma PaddedFields(s: string)
    requires |s| == 10 && s[4] == '-' && s[7] == '-'
    requires AllDigits(s[..4]) && AllDigits(s[5..7]) && AllDigits(s[8..])
    ensures var d := Date(DigitsValue(s[..4]), DigitsValue(s[5..7]), DigitsValue(s[8..]));
            && (ParseDate(s).Some? ==> ParseDate(s) == Some(d))
            && (ValidDate(s) <==> IsCalendarDate(d))
  {
    var m, dd := s[5..7], s[8..];
    DigitsValue4(s[..4]);
    DigitsValue2(m);
    DigitsValue2(dd);
    assert IsDigit(m[0]) && IsDigit(m[1]) && IsDigit(dd[0]) && IsDigit(dd[1]);
    assert s[5..][0] == m[0] && s[5..][1] == m[1] && s[5..][2] == '-';
    assert s[8..] == dd;
  }

  /** `strptime` refuses 31 April although each field is in range. */
  lemma DayPastMonthEndRejected()
    ensures !ValidDate("2025-04-31")
    ensures ValidDate("2025-03-31")
  {
    PaddedFields("2025-04-31");
    PaddedFields("2025-03-31");
  }

  // ---------------------------------------------------------------------
  // What strptime accepts and rejects
  // ---------------------------------------------------------------------

  /** 29 February exists in 2024, a year divisible by four, and not in 2025. */
  lemma LeapDays()
    ensures ValidDate("2024-02-29")
    ensures !ValidDate("2025-02-29")
  {
    LeapYearDay("2024-02-29");
    LeapYearDay("2025-02-29");
  }

  /** A century year is a leap year only when divisible by 400. */
  lemma CenturyLeapDays()
    ensures !ValidDate("1900-02-29")
    ensures ValidDate("2000-02-29")
  {
    LeapYearDay("1900-02-29");
    LeapYearDay("2000-02-29");
  }

  /** `YYYY-02-29` parses for every four-digit year, and is a real date
      exactly when the year is a leap year from 1 on. */
  lemma LeapYearDay(s: string)
    requires |s| == 10 && AllDigits(s[..4])
    requires s[4] == '-' && s[5] == '0' && s[6] == '2' && s[7] == '-' && s[8] == '2' && s[9] == '9'
    ensures DigitsValue(s[..4]) == 10 * (10 * (10 * DigitValue(s[0]) + DigitValue(s[1])) + DigitValue(s[2])) + DigitValue(s[3])
    ensures ParseDate(s) == Some(Date(DigitsValue(s[..4]), 2, 29))
    ensures ValidDate(s) <==> 1 <= DigitsValue(s[..4]) && IsLeapYear(DigitsValue(s[..4]))
  {
    DigitsValue4(s[..4]);
    assert s[5..][1] == '2';
    assert s[8..] == "29";
  }

  /** `%m` and `%d` also take a single digit, and `%d` a space and a digit. */
  lemma ShortFieldsAccepted()
    ensures ValidDate("2025-1-5")
    ensures ValidDate("2025-01- 5")
  {
    Fields("2025-1-5");
    Fields("2025-01- 5");
  }

  /** Year 0 is out of `datetime.date`'s range. */
  lemma YearZeroRejected()
    ensures ParseDate("0000-01-01").Some? && !ValidDate("0000-01-01")
  {
    Fields("0000-01-01");
  }

  /** Month 13 and day 32 do not match the pattern. */
  lemma OutOfRangeFieldsRejected()
    ensures !ValidDate("2025-13-01")
    ensures !ValidDate("2025-01-32")
  {
    Fields("2025-13-01");
    Fields("2025-01-32");
  }

  /** Other separators and trailing characters are refused. */
  lemma OtherShapesRejected()
    ensures !ValidDate("2025/01/05")
    ensures !ValidDate("2025-01-05 ")
  {
    Fields("2025-01-05 ");
  }

  /** The fields of a concrete string, as `ParseDate` cuts them. */
  lemma Fields(s: string)
    requires |s| >= 7 && AllDigits(s[..4])
    ensures DigitsValue(s[..4]) == 10 * (10 * (10 * DigitValue(s[0]) + DigitValue(s[1])) + DigitValue(s[2])) + DigitValue(s[3])
    ensures s[5..] == [s[5]] + s[6..] && s[6..] == [s[6]] + s[7..]
    ensures |s| >= 8 ==> s[7..] == [s[7]] + s[8..]
  {
    DigitsValue4(s[..4]);
  }

  /** Dates written with one-digit months are valid, yet string order is not
      date order for them: October sorts before September. */
  lemma UnpaddedOrderIsNotChronological()
    ensures ValidDate("2025-10-01") && ValidDate("2025-9-01")
    ensures ParseDate("2025-10-01").value.month > ParseDate("2025-9-01").value.month
    ensures LessEq("2025-10-01", "2025-9-01") && !LessEq("2025-9-01", "2025-10-01")
  {
    FirstOfOctober();
    FirstOfSeptember();
    OctoberSortsFirst();
  }

  lemma FirstOfOctober()
    ensures ParseDate("2025-10-01") == Some(Date(2025, 10, 1)) && ValidDate("2025-10-01")
  {
    Fields("2025-10-01");
  }

  lemma FirstOfSeptember()
    ensures ParseDate("2025-9-01") == Some(Date(2025, 9, 1)) && ValidDate("2025-9-01")
  {
    Fields("2025-9-01");
  }

  lemma OctoberSortsFirst()
    ensures LessEq("2025-10-01", "2025-9-01") && !LessEq("2025-9-01", "2025-10-01")
  {
    FirstDifference("2025-9-01", "2025-10-01", 5);
  }
}

=== FILE: deadlines.dfy ===
/** The deadline list: adding with `id = len + 1`, the date-sorted view both
    front ends display, the filtered listing of the command line, and the two
    ways an entry is deleted -- by stored position (command line) and by the
    `id` of the entry shown at a position of the sorted view (graphical front
    end).
 */
module Deadlines {
  import opened Results
  import opened Strings
  import opened Sequences
  import opened Store

  /** The entry appended by `add_ddl`: its id is one more than the current length. */
  function Add(ddls: seq<Deadline>, date: string, title: string): (r: seq<Deadline>)
    ensures |r| == |ddls| + 1 && r[..|ddls|] == ddls
    ensures r[|ddls|].id == |ddls| + 1 && r[|ddls|].date == date && r[|ddls|].title == title
  {
    ddls + [Deadline(|ddls| + 1, date, title)]
  }

  /** Ids are 1, 2, 3, ... in stored order, as a list built only by `Add` has them. */
  predicate PositionalIds(ddls: seq<Deadline>) {
    forall k :: 0 <= k < |ddls| ==> ddls[k].id == k + 1
  }

  predicate UniqueIds(ddls: seq<Deadline>) {
    forall i, j :: 0 <= i < j < |ddls| ==> ddls[i].id != ddls[j].id
  }

  lemma AddKeepsIdsPositional(ddls: seq<Deadline>, date: string, title: string)
    requires PositionalIds(ddls)
    ensures PositionalIds(Add(ddls, date, title))
  {
  }

  lemma PositionalIdsAreUnique(ddls: seq<Deadline>)
    requires PositionalIds(ddls)
    ensures UniqueIds(ddls)
  {
  }

  /** Ids are not keys: deleting any entry but the last and then adding one
      gives the new entry the id the old last entry still carries. */
  lemma DeleteThenAddRepeatsId(ddls: seq<Deadline>, k: nat, date: string, title: string)
    requires PositionalIds(ddls)
    requires k < |ddls| - 1
    ensures var after := Add(RemoveAt(ddls, k), date, title);
            |after| == |ddls| && after[|after| - 2].id == after[|after| - 1].id == |ddls|
    ensures !UniqueIds(Add(RemoveAt(ddls, k), date, title))
  {
    var after := Add(RemoveAt(ddls, k), date, title);
    assert after[|after| - 2] == ddls[|ddls| - 1];
  }

  // ---------------------------------------------------------------------
  // The date-sorted view
  // ---------------------------------------------------------------------

  /** A deadline together with its position in stored order. */
  datatype Slot = Slot(pos: nat, ddl: Deadline)

  function Tag(ddls: seq<Deadline>): (t: seq<Slot>)
    ensures |t| == |ddls|
    ensures forall i :: 0 <= i < |t| ==> t[i] == Slot(i, ddls[i])
  {
    seq(|ddls|, i requires 0 <= i < |ddls| => Slot(i, ddls[i]))
  }

  function SlotDate(e: Slot): string {
    e.ddl.date
  }

  function SlotPos(e: Slot): int {
    e.pos
  }

  function SortedSlots(ddls: seq<Deadline>): (ss: seq<Slot>)
    ensures |ss| == |ddls|
  {
    SortBy(Tag(ddls), SlotDate)
  }

  /** `sorted(ddls, key=lambda x: x["date"])`. */
  function SortedView(ddls: seq<Deadline>): (v: seq<Deadline>)
    ensures |v| == |ddls|
  {
    var ss := SortedSlots(ddls);
    seq(|ss|, i requires 0 <= i < |ss| => ss[i].ddl)
  }

  /** For each position of the sorted view, the stored position of the entry shown there. */
  function Order(ddls: seq<Deadline>): (o: seq<nat>)
    ensures |o| == |ddls|
  {
    var ss := SortedSlots(ddls);
    seq(|ss|, i requires 0 <= i < |ss| => ss[i].pos)
  }

  /** The sorted view is the stable sort of the stored list by date string:
      `Order` is a permutation of the stored positions, the view shows the
      stored entry at each of them, dates never decrease along the view, and
      entries with equal dates keep their stored order. */
  lemma SortedViewSpec(ddls: seq<Deadline>)
    ensures forall i :: 0 <= i < |ddls| ==> Order(ddls)[i] < |ddls| && SortedView(ddls)[i] == ddls[Order(ddls)[i]]
    ensures forall p :: 0 <= p < |ddls| ==> p in Order(ddls)
    ensures forall i, j :: 0 <= i < j < |ddls| ==> Order(ddls)[i] != Order(ddls)[j]
    ensures forall i, j :: 0 <= i < j < |ddls| ==> LessEq(SortedView(ddls)[i].date, SortedView(ddls)[j].date)
    ensures forall i, j :: 0 <= i < j < |ddls| && SortedView(ddls)[i].date == SortedView(ddls)[j].date
              ==> Order(ddls)[i] < Order(ddls)[j]
  {
    var t := Tag(ddls);
    var ss := SortedSlots(ddls);
    var v, o := SortedView(ddls), Order(ddls);
    SortByMembers(t, SlotDate);
    SortByPermutes(t, SlotDate);
    SortBySorted(t, SlotDate);
    SortByStable(t, SlotDate, SlotPos);
    forall i | 0 <= i < |ddls|
      ensures o[i] < |ddls| && v[i] == ddls[o[i]]
    {
      assert ss[i] in t;
    }
    forall p | 0 <= p < |ddls|
      ensures p in o
    {
      assert t[p] in multiset(t);
      assert t[p] in ss;
      var i :| 0 <= i < |ss| && ss[i] == t[p];
      assert o[i] == p;
    }
    forall i, j | 0 <= i < j < |ddls|
      ensures o[i] != o[j]
    {
      assert ss[i] in t && ss[j] in t;
      if SlotDate(ss[i]) == SlotDate(ss[j]) {
        assert o[i] < o[j];
      } else {
        assert ddls[o[i]].date != ddls[o[j]].date;
      }
    }
    forall i, j | 0 <= i < j < |ddls|
      ensures LessEq(v[i].date, v[j].date)
    {
      assert SlotDate(ss[i]) == v[i].date && SlotDate(ss[j]) == v[j].date;
    }
    forall i, j | 0 <= i < j < |ddls| && v[i].date == v[j].date
      ensures o[i] < o[j]
    {
      assert SlotDate(ss[i]) == SlotDate(ss[j]);
    }
  }

  // ---------------------------------------------------------------------
  // Listing with a filter
  // ---------------------------------------------------------------------

  /** A printed line `[index] date | title`. */
  datatype Listed = Listed(index: nat, ddl: Deadline)

  /** `query in ddl["title"] or query in ddl["date"]`: case-sensitive. */
  predicate Matches(query: string, d: Deadline)
    ensures |query| == 0 ==> Matches(query, d)
    ensures Matches(query, d) ==> |query| <= |d.title| || |query| <= |d.date|
  {
    Contains(d.title, query) || Contains(d.date, query)
  }

  /** The entries of `v` that `keep` accepts, numbered from `first` by
      their position in `v`: each is the entry at its number, accepted, and
      the numbers increase along the result. */
  function Select(v: seq<Deadline>, keep: Deadline -> bool, first: nat): (r: seq<Listed>)
    ensures forall k :: 0 <= k < |r| ==>
              first <= r[k].index < first + |v| && r[k].ddl == v[r[k].index - first] && keep(r[k].ddl)
    ensures forall k, l :: 0 <= k < l < |r| ==> r[k].index < r[l].index
    decreases |v|
  {
    if |v| == 0 then []
    else
      var rest := Select(v[1..], keep, first + 1);
      if keep(v[0]) then
        var r := [Listed(first, v[0])] + rest;
        assert forall k :: 1 <= k < |r| ==> r[k] == rest[k - 1];
        r
      else rest
  }

  /** Nothing accepted is skipped. */
  lemma SelectComplete(v: seq<Deadline>, keep: Deadline -> bool, first: nat)
    ensures forall i :: 0 <= i < |v| && keep(v[i]) ==> Listed(first + i, v[i]) in Select(v, keep, first)
  {
    forall i | 0 <= i < |v| && keep(v[i])
      ensures Listed(first + i, v[i]) in Select(v, keep, first)
    {
      SelectHas(v, keep, first, i);
    }
  }

  /** The accepted entry at position `i` of `v` is selected under `first + i`. */
  lemma {:induction false} SelectHas(v: seq<Deadline>, keep: Deadline -> bool, first: nat, i: nat)
    requires i < |v| && keep(v[i])
    ensures Listed(first + i, v[i]) in Select(v, keep, first)
    decreases i
  {
    var rest := Select(v[1..], keep, first + 1);
    if i == 0 {
      assert Select(v, keep, first) == [Listed(first, v[0])] + rest;
    } else {
      SelectHas(v[1..], keep, first + 1, i - 1);
      assert v[1..][i - 1] == v[i];
      assert Select(v, keep, first) == (if keep(v[0]) then [Listed(first, v[0])] + rest else rest);
    }
  }

  /** `list_ddls`: the entries of the sorted view whose title or date
      contains `query`, each with its 1-based position in the whole sorted
      view (so a filtered listing can skip numbers), in sorted order. */
  function List(ddls: seq<Deadline>, query: string): (r: seq<Listed>)
    ensures forall k :: 0 <= k < |r| ==>
              1 <= r[k].index <= |ddls| && r[k].ddl == SortedView(ddls)[r[k].index - 1] && Matches(query, r[k].ddl)
    ensures forall k, l :: 0 <= k < l < |r| ==> r[k].index < r[l].index
    ensures forall i :: 0 <= i < |ddls| && Matches(query, SortedView(ddls)[i]) ==> Listed(i + 1, SortedView(ddls)[i]) in r
  {
    SelectComplete(SortedView(ddls), d => Matches(query, d), 1);
    Select(SortedView(ddls), d => Matches(query, d), 1)
  }

  /** When everything is accepted, the `i`-th entry is selected under `first + i`. */
  lemma SelectAll(v: seq<Deadline>, keep: Deadline -> bool, first: nat)
    requires forall d :: keep(d)
    ensures |Select(v, keep, first)| == |v|
    ensures forall i :: 0 <= i < |v| ==> Select(v, keep, first)[i] == Listed(first + i, v[i])
  {
    SelectAllLength(v, keep, first);
    forall i | 0 <= i < |v|
      ensures Select(v, keep, first)[i] == Listed(first + i, v[i])
    {
      SelectAllAt(v, keep, first, i);
    }
  }

  /** When everything is accepted, nothing is dropped. */
  lemma {:induction false} SelectAllLength(v: seq<Deadline>, keep: Deadline -> bool, first: nat)
    requires forall d :: keep(d)
    ensures |Select(v, keep, first)| == |v|
    decreases |v|
  {
    if |v| > 0 {
      assert keep(v[0]);
      SelectAllLength(v[1..], keep, first + 1);
    }
  }

  lemma {:induction false} SelectAllAt(v: seq<Deadline>, keep: Deadline -> bool, first: nat, i: nat)
    requires forall d :: keep(d)
    requires i < |v|
    ensures |Select(v, keep, first)| == |v|
    ensures Select(v, keep, first)[i] == Listed(first + i, v[i])
    decreases i
  {
    SelectAllLength(v, keep, first);
    var rest := Select(v[1..], keep, first + 1);
    assert keep(v[0]);
    assert Select(v, keep, first) == [Listed(first, v[0])] + rest;
    if i > 0 {
      SelectAllAt(v[1..], keep, first + 1, i - 1);
      assert v[1..][i - 1] == v[i];
    }
  }

  /** An empty query lists every entry, numbered 1, 2, 3, ... in date order. */
  lemma EmptyQueryListsAll(ddls: seq<Deadline>)
    ensures |List(ddls, "")| == |ddls|
    ensures forall i :: 0 <= i < |ddls| ==> List(ddls, "")[i] == Listed(i + 1, SortedView(ddls)[i])
  {
    assert forall d :: Matches("", d);
    SelectAll(SortedView(ddls), d => Matches("", d), 1);
  }

  // ---------------------------------------------------------------------
  // Deleting the entry shown at a position of the sorted view
  // ---------------------------------------------------------------------

  /** The first stored position holding `id`, as `next(i for i, d in
      enumerate(ddls) if d["id"] == id)` finds it; `None` where `next` would
      raise `StopIteration`. */
  function FindId(ddls: seq<Deadline>, id: int, from: nat): (r: Option<nat>)
    ensures r.Some? ==> from <= r.value < |ddls| && ddls[r.value].id == id
    ensures forall j :: from <= j < |ddls| && (r.None? || j < r.value) ==> ddls[j].id != id
    decreases |ddls| - from
  {
    if from >= |ddls| then None
    else if ddls[from].id == id then Some(from)
    else FindId(ddls, id, from + 1)
  }

  /** The graphical front end's `delete_ddl` on the entry shown at `i`:
      look up that entry's id, then pop the FIRST stored entry with that id.
      Nothing happens on an empty list; an index past the view raises
      `IndexError`. */
  function DeleteShownById(ddls: seq<Deadline>, i: nat): (r: Result<seq<Deadline>>)
    ensures |ddls| == 0 ==> r == Ok(ddls)
    ensures 0 < |ddls| <= i ==> r == Err(IndexError)
    ensures i < |ddls| ==> r.Ok? && |r.value| == |ddls| - 1
    ensures i < |ddls| ==> exists k :: && 0 <= k < |ddls|
                                      && ddls[k].id == SortedView(ddls)[i].id
                                      && (forall j :: 0 <= j < k ==> ddls[j].id != ddls[k].id)
                                      && r.value == RemoveAt(ddls, k)
  {
    if |ddls| == 0 then Ok(ddls)
    else if i >= |ddls| then Err(IndexError)
    else
      SortedViewSpec(ddls);
      var id := SortedView(ddls)[i].id;
      assert ddls[Order(ddls)[i]].id == id;
      match FindId(ddls, id, 0)
      case None => Err(StopIteration)
      case Some(k) => Ok(RemoveAt(ddls, k))
  }

  /** Removing the entry the sorted view shows at `i`, by its stored position. */
  function DeleteShown(ddls: seq<Deadline>, i: nat): (r: Result<seq<Deadline>>)
    ensures |ddls| == 0 ==> r == Ok(ddls)
    ensures 0 < |ddls| <= i ==> r == Err(IndexError)
    ensures i < |ddls| ==> && r.Ok?
                           && Order(ddls)[i] < |ddls|
                           && ddls[Order(ddls)[i]] == SortedView(ddls)[i]
                           && r.value == RemoveAt(ddls, Order(ddls)[i])
                           && multiset(r.value) + multiset{SortedView(ddls)[i]} == multiset(ddls)
  {
    if |ddls| == 0 then Ok(ddls)
    else if i >= |ddls| then Err(IndexError)
    else
      SortedViewSpec(ddls);
      Ok(RemoveAt(ddls, Order(ddls)[i]))
  }

  /** With unique ids, deleting by id removes exactly the entry shown at `i`. */
  lemma DeleteByIdIsDeleteShown(ddls: seq<Deadline>, i: nat)
    requires UniqueIds(ddls)
    ensures DeleteShownById(ddls, i) == DeleteShown(ddls, i)
  {
    if i < |ddls| {
      SortedViewSpec(ddls);
      var p := Order(ddls)[i];
      var k :| && 0 <= k < |ddls|
               && ddls[k].id == SortedView(ddls)[i].id
               && DeleteShownById(ddls, i).value == RemoveAt(ddls, k);
      assert ddls[p].id == ddls[k].id;
    }
  }

  /** Stored `[Paper(1), Trip(2)]`; the command line deletes entry 1 and adds
      an exam, which takes id 2 as Trip still does.  The exam is shown first,
      yet deleting it in the graphical front end removes Trip, while deleting
      by the stored position of the shown entry removes the exam. */
  lemma DuplicateIdDeletesAnotherEntry()
    ensures var before := [Deadline(1, "2025-12-20", "Paper"), Deadline(2, "2026-01-10", "Trip")];
            var after := Add(RemoveAt(before, 0), "2025-12-25", "Exam");
            && after == [Deadline(2, "2026-01-10", "Trip"), Deadline(2, "2025-12-25", "Exam")]
            && SortedView(after)[0] == Deadline(2, "2025-12-25", "Exam")
            && DeleteShownById(after, 0) == Ok([Deadline(2, "2025-12-25", "Exam")])
            && DeleteShown(after, 0) == Ok([Deadline(2, "2026-01-10", "Trip")])
  {
    var before := [Deadline(1, "2025-12-20", "Paper"), Deadline(2, "2026-01-10", "Trip")];
    var trip, exam := Deadline(2, "2026-01-10", "Trip"), Deadline(2, "2025-12-25", "Exam");
    RemoveFromPair(before[0], before[1]);
    assert Add(RemoveAt(before, 0), "2025-12-25", "Exam") == [trip, exam];
    FirstDifference(trip.date, exam.date, 3);
    SharedIdLaterFirst(trip, exam);
  }

  /** Two entries sharing an id, the second due first: the first line shows
      the second entry, yet deleting it by id removes the first. */
  lemma SharedIdLaterFirst(a: Deadline, b: Deadline)
    requires a.id == b.id && !LessEq(a.date, b.date)
    ensures SortedView([a, b])[0] == b
    ensures DeleteShownById([a, b], 0) == Ok([b])
    ensures DeleteShown([a, b], 0) == Ok([a])
  {
    TwoEntryView(a, b);
    assert FindId([a, b], b.id, 0) == Some(0);
    RemoveFromPair(a, b);
  }

  /** The sorted view of two entries stored out of date order. */
  lemma TwoEntryView(a: Deadline, b: Deadline)
    requires !LessEq(a.date, b.date)
    ensures SortedView([a, b]) == [b, a] && Order([a, b]) == [1, 0]
  {
    var t := Tag([a, b]);
    assert t == [Slot(0, a), Slot(1, b)];
    assert t[1..] == [Slot(1, b)];
    assert SortBy(t[1..], SlotDate) == [Slot(1, b)];
    assert SortBy(t, SlotDate) == Insert(Slot(0, a), [Slot(1, b)], SlotDate);
    assert [Slot(1, b)][1..] == [];
    assert Insert(Slot(0, a), [Slot(1, b)], SlotDate) == [Slot(1, b)] + Insert(Slot(0, a), [], SlotDate);
    assert SortedSlots([a, b]) == [Slot(1, b), Slot(0, a)];
  }
}

=== FILE: gui.dfy ===
/** The data effects of the graphical front end, `DormHelperGUI`.  Widgets,
    dialogs and redrawing are left out; a field's text, the selected line
    and the answers to confirmation dialogs are parameters.
 */
module DormGui {
  import opened Results
  import opened Strings
  import opened Dates
  import opened Store
  import Deadlines
  import Shopping
  import Roster
  import Sequences
  import DormHelper

  /** The "Add" button on the deadline tab: both fields are stripped; an
      empty one or a date `strptime` refuses is rejected before anything is
      delegated; otherwise the command-line `add_ddl` gets the two stripped
      fields as its arguments, so the title is kept whole. */
  function AddDdl(doc: Document, dateField: string, titleField: string): (r: Result<Document>)
    ensures var date, title := Strip(dateField), Strip(titleField);
            && (|date| == 0 || |title| == 0 ==> r == Err(EmptyField))
            && (|date| > 0 && |title| > 0 && !ValidDate(date) ==> r == Err(BadDate))
            && (r.Ok? <==> |date| > 0 && |title| > 0 && ValidDate(date))
            && (r.Ok? ==> && r.value.ddls == doc.ddls + [Deadline(|doc.ddls| + 1, date, title)]
                          && r.value.config == doc.config && r.value.roster == doc.roster
                          && r.value.shopping == doc.shopping)
  {
    var date, title := Strip(dateField), Strip(titleField);
    if |date| == 0 || |title| == 0 then Err(EmptyField)
    else if !ValidDate(date) then Err(BadDate)
    else
      var r := DormHelper.AddDdl(doc, [date, title]);
      assert [date, title][1..] == [title];
      assert r.value.ddls == r.value.ddls[..|doc.ddls|] + [r.value.ddls[|doc.ddls|]];
      r
  }

  /** Once the graphical guards pass, the delegated command never refuses. */
  lemma AddDelegationSucceeds(doc: Document, dateField: string, titleField: string)
    requires |Strip(dateField)| > 0 && |Strip(titleField)| > 0 && ValidDate(Strip(dateField))
    ensures DormHelper.AddDdl(doc, [Strip(dateField), Strip(titleField)]).Ok?
    ensures AddDdl(doc, dateField, titleField) == DormHelper.AddDdl(doc, [Strip(dateField), Strip(titleField)])
  {
  }

  /** "Delete Selected" on the deadline tab, as written: the selected line's
      entry in the date-sorted view is looked up by id and the first stored
      entry with that id is popped.  No selection, or an empty list, does
      nothing. */
  function DeleteDdl(doc: Document, sel: Option<nat>): (r: Result<Document>)
    ensures sel.None? || |doc.ddls| == 0 ==> r == Ok(doc)
    ensures sel.Some? && 0 < |doc.ddls| <= sel.value ==> r == Err(IndexError)
    ensures sel.Some? && sel.value < |doc.ddls| ==>
              && r.Ok? && |r.value.ddls| == |doc.ddls| - 1
              && (exists k :: && 0 <= k < |doc.ddls|
                               && doc.ddls[k].id == Deadlines.SortedView(doc.ddls)[sel.value].id
                               && (forall j :: 0 <= j < k ==> doc.ddls[j].id != doc.ddls[k].id)
                               && r.value.ddls == Sequences.RemoveAt(doc.ddls, k))
              && r.value.config == doc.config && r.value.roster == doc.roster
              && r.value.shopping == doc.shopping
  {
    if sel.None? then Ok(doc)
    else
      match Deadlines.DeleteShownById(doc.ddls, sel.value)
      case Ok(ddls) => Ok(doc.(ddls := ddls))
      case Err(e) => Err(e)
  }

  /** With unique ids, the selected line's entry is the one removed. */
  lemma DeleteDdlRemovesSelected(doc: Document, i: nat)
    requires Deadlines.UniqueIds(doc.ddls) && i < |doc.ddls|
    ensures DeleteDdl(doc, Some(i)) == Ok(doc.(ddls := Deadlines.DeleteShown(doc.ddls, i).value))
    ensures multiset(DeleteDdl(doc, Some(i)).value.ddls) + multiset{Deadlines.SortedView(doc.ddls)[i]} == multiset(doc.ddls)
  {
    Deadlines.DeleteByIdIsDeleteShown(doc.ddls, i);
  }

  /** "Rotate to Next": the same guard and rotation as `duty next`. */
  function RotateDuty(doc: Document): (r: Result<Document>)
    ensures r == DormHelper.DutyNext(doc)
    ensures r.Err? <==> |doc.roster| < 2
  {
    match Roster.Rotate(doc.roster)
    case Ok(roster) => Ok(doc.(roster := roster))
    case Err(e) => Err(e)
  }

  /** "OK" in the roster editor: the stripped non-blank lines of the box
      become the roster; a blank box is refused and the roster kept. */
  function SaveRoster(doc: Document, text: string): (r: Result<Document>)
    ensures r.Err? <==> AllSpace(text)
    ensures r.Ok? ==> && r.value.roster == Roster.RosterFromText(text).value
                      && |r.value.roster| > 0
                      && Roster.Filtered(Split(Strip(text), "\n"), r.value.roster)
                      && r.value.config == doc.config && r.value.ddls == doc.ddls
                      && r.value.shopping == doc.shopping
  {
    match Roster.RosterFromText(text)
    case Ok(roster) => Ok(doc.(roster := roster))
    case Err(e) => Err(e)
  }

  /** Opening the editor on a roster of tidy names and pressing OK keeps it. */
  lemma EditorKeepsRoster(doc: Document)
    requires |doc.roster| > 0
    requires forall k :: 0 <= k < |doc.roster| ==> Roster.Tidy(doc.roster[k])
    ensures SaveRoster(doc, Join(doc.roster, "\n") + "\n") == Ok(doc)
  {
    Roster.EditRoundTrip(doc.roster);
  }

  /** "Add" on the shopping tab: the stripped text is added as one item;
      blank text does nothing. */
  function AddShoppingItem(doc: Document, field: string): (r: Document)
    ensures AllSpace(field) ==> r == doc
    ensures !AllSpace(field) ==> && Shopping.Lookup(r.shopping, Strip(field)) == Some(Shopping.CountOf(doc.shopping, Strip(field)) + 1)
                                 && (forall n :: n != Strip(field) ==> Shopping.Lookup(r.shopping, n) == Shopping.Lookup(doc.shopping, n))
                                 && r.config == doc.config && r.roster == doc.roster && r.ddls == doc.ddls
    ensures !AllSpace(field) && Shopping.Lookup(doc.shopping, Strip(field)).None? ==>
              r.shopping == doc.shopping + [ShopItem(Strip(field), 1)]
    ensures !AllSpace(field) && Shopping.Lookup(doc.shopping, Strip(field)).Some? ==>
              |r.shopping| == |doc.shopping| && forall k :: 0 <= k < |r.shopping| ==> r.shopping[k].name == doc.shopping[k].name
    ensures WellFormed(doc) ==> WellFormed(r)
    ensures Shopping.PositiveCounts(doc.shopping) ==> Shopping.PositiveCounts(r.shopping)
  {
    var item := Strip(field);
    if |item| == 0 then doc
    else DormHelper.ShopAdd(doc, [item]).value
  }

  /** "Delete Selected" on the shopping tab, as written: the name is cut out
      of the selected line's text. */
  function DeleteShoppingItem(doc: Document, sel: Option<nat>): (r: Result<Document>)
    ensures sel.None? ==> r == Ok(doc)
    ensures r.Ok? ==> && r.value.config == doc.config && r.value.roster == doc.roster && r.value.ddls == doc.ddls
                      && (r.value.shopping == doc.shopping ||
                          exists k :: 0 <= k < |doc.shopping| && r.value.shopping == Sequences.RemoveAt(doc.shopping, k))
  {
    match Shopping.GuiDeleteItem(doc.shopping, sel)
    case Ok(shop) => Ok(doc.(shopping := shop))
    case Err(e) => Err(e)
  }

  /** "Clear All": nothing on an empty list or when the confirmation is
      declined; otherwise the command-line `shop_clear`. */
  function ClearShoppingList(doc: Document, confirmed: bool): (r: Document)
    ensures !confirmed || |doc.shopping| == 0 ==> r == doc
    ensures confirmed ==> |r.shopping| == 0 && r.config == doc.config && r.roster == doc.roster && r.ddls == doc.ddls
  {
    if |doc.shopping| == 0 then doc
    else if confirmed then DormHelper.ShopClear(doc)
    else doc
  }

  /** The name shown as today's duty on both tabs. */
  function CurrentDuty(doc: Document): (who: string)
    ensures |doc.roster| > 0 ==> who == doc.roster[0]
    ensures |doc.roster| == 0 ==> who == "None"
  {
    Roster.Current(doc.roster)
  }

  /** "Sync Data": reload from the pulled file on success, keep the
      document otherwise. */
  function SyncData(doc: Document, pullOk: bool, pulled: FileState): (r: Document)
    ensures pullOk ==> r == Load(pulled)
    ensures !pullOk ==> r == doc
  {
    DormHelper.StartupSync(doc, pullOk, pulled).0
  }
}

=== FILE: helper.dfy ===
/** The command-line front end, `DormHelper`: each command maps the document
    to a new document, or is refused with an error and leaves it as it was.
    The date, the git outcomes and the file contents are parameters.
 */
module DormHelper {
  import opened Results
  import opened Strings
  import opened Dates
  import opened Sequences
  import opened Store
  import Deadlines
  import Shopping
  import Roster

  // ---------------------------------------------------------------------
  // Deadlines
  // ---------------------------------------------------------------------

  /** `add <date> <title words...>`: the title is the remaining words joined
      by single spaces; the date must pass `strptime("%Y-%m-%d")`. */
  function AddDdl(doc: Document, args: seq<string>): (r: Result<Document>)
    ensures r.Ok? <==> |args| >= 2 && ValidDate(args[0])
    ensures |args| < 2 ==> r == Err(TooFewArguments)
    ensures |args| >= 2 && !ValidDate(args[0]) ==> r == Err(BadDate)
    ensures r.Ok? ==> && |r.value.ddls| == |doc.ddls| + 1
                      && r.value.ddls[..|doc.ddls|] == doc.ddls
                      && r.value.ddls[|doc.ddls|] == Deadline(|doc.ddls| + 1, args[0], Join(args[1..], " "))
                      && r.value.config == doc.config && r.value.roster == doc.roster
                      && r.value.shopping == doc.shopping
    ensures r.Ok? && Deadlines.PositionalIds(doc.ddls) ==> Deadlines.PositionalIds(r.value.ddls)
  {
    if |args| < 2 then Err(TooFewArguments)
    else if !ValidDate(args[0]) then Err(BadDate)
    else
      var ddls := Deadlines.Add(doc.ddls, args[0], Join(args[1..], " "));
      assert ddls[..|doc.ddls|] == doc.ddls;
      Ok(doc.(ddls := ddls))
  }

  /** A date `date.today().isoformat()` writes is always accepted. */
  lemma AddTodayAccepted(doc: Document, today: Date, title: string)
    requires IsCalendarDate(today)
    ensures AddDdl(doc, [IsoFormat(today), title]).Ok?
  {
    IsoFormatParses(today);
  }

  /** `list [words...]`: the entries of the date-sorted view whose title or
      date contains the words joined by spaces, numbered by their place in
      the whole view; none is skipped, and it changes nothing. */
  function ListDdls(doc: Document, args: seq<string>): (r: seq<Deadlines.Listed>)
    ensures forall k :: 0 <= k < |r| ==>
              && 1 <= r[k].index <= |doc.ddls|
              && r[k].ddl == Deadlines.SortedView(doc.ddls)[r[k].index - 1]
              && Deadlines.Matches(Query(args), r[k].ddl)
    ensures forall k, l :: 0 <= k < l < |r| ==> r[k].index < r[l].index
    ensures forall i :: 0 <= i < |doc.ddls| && Deadlines.Matches(Query(args), Deadlines.SortedView(doc.ddls)[i]) ==>
              Deadlines.Listed(i + 1, Deadlines.SortedView(doc.ddls)[i]) in r
  {
    Deadlines.List(doc.ddls, Query(args))
  }

  /** `list` with no words shows every entry, numbered 1, 2, 3, ... in date order. */
  lemma ListAllNumbered(doc: Document)
    ensures |ListDdls(doc, [])| == |doc.ddls|
    ensures forall k :: 0 <= k < |doc.ddls| ==> ListDdls(doc, [])[k] == Deadlines.Listed(k + 1, Deadlines.SortedView(doc.ddls)[k])
  {
    assert Query([]) == "";
    Deadlines.EmptyQueryListsAll(doc.ddls);
  }

  /** The search text of `list`: the words joined by single spaces. */
  function Query(args: seq<string>): (q: string)
    ensures |args| == 0 ==> q == ""
    ensures |args| == 1 ==> q == args[0]
  {
    Join(args, " ")
  }

  /** `delete <n>`: `int(n) - 1` must be a stored position; the entry there
      is popped.  The number is read against the stored order, not against
      the sorted listing. */
  function DeleteDdl(doc: Document, args: seq<string>): (r: Result<Document>)
    ensures |args| == 0 ==> r == Err(TooFewArguments)
    ensures |args| > 0 && ParseInt(args[0]).None? ==> r == Err(NotNumeric)
    ensures r.Ok? <==> |args| > 0 && ParseInt(args[0]).Some? && 1 <= ParseInt(args[0]).value <= |doc.ddls|
    ensures r.Err? && |args| > 0 && ParseInt(args[0]).Some? ==> r == Err(IndexMissing)
    ensures r.Ok? ==> && r.value.ddls == RemoveAt(doc.ddls, ParseInt(args[0]).value - 1)
                      && multiset(r.value.ddls) + multiset{doc.ddls[ParseInt(args[0]).value - 1]} == multiset(doc.ddls)
                      && r.value.config == doc.config && r.value.roster == doc.roster
                      && r.value.shopping == doc.shopping
  {
    if |args| < 1 then Err(TooFewArguments)
    else match ParseInt(args[0])
      case None => Err(NotNumeric)
      case Some(n) =>
        var idx := n - 1;
        if 0 <= idx < |doc.ddls| then Ok(doc.(ddls := RemoveAt(doc.ddls, idx)))
        else Err(IndexMissing)
  }

  /** `delete <n>` with `n` written as `str(n)` removes the `n`-th stored
      entry, for every `n` in range. */
  lemma DeleteByNumeral(doc: Document, n: int)
    requires 1 <= n <= |doc.ddls| && |IntToString(n)| <= MaxDigits
    ensures DeleteDdl(doc, [IntToString(n)]) == Ok(doc.(ddls := RemoveAt(doc.ddls, n - 1)))
  {
    ParseIntRoundTrip(n);
  }

  /** A numeral of more than `MaxDigits` digits is refused as not numeric,
      whatever its value, and nothing is deleted. */
  lemma LongNumeralRefused(doc: Document, s: string)
    requires |s| > MaxDigits && AllDigits(s)
    ensures DeleteDdl(doc, [s]) == Err(NotNumeric)
  {
    assert !IsSpace(s[0]) && !IsSpace(s[|s| - 1]);
    DigitCountOfDigits(s);
  }

  /** A word holding a letter or any other character `int()` never reads
      is refused as not numeric, and nothing is deleted: `delete abc`. */
  lemma NonNumeralRefused(doc: Document, s: string, k: nat)
    requires k < |Strip(s)|
    requires var c := Strip(s)[k]; !IsDigit(c) && c != '_' && c != '+' && c != '-'
    ensures DeleteDdl(doc, [s]) == Err(NotNumeric)
  {
    ForeignCharacterRefused(s, k);
  }

  lemma DeleteAbcRefused(doc: Document)
    ensures DeleteDdl(doc, ["abc"]) == Err(NotNumeric)
  {
    var s := "abc";
    assert !IsSpace(s[0]) && !IsSpace(s[|s| - 1]);
    assert Strip(s) == s;
    NonNumeralRefused(doc, s, 0);
  }

  /** Deleting the entry listed under number `n`, as the listing numbers
      them: the `n`-th entry of the date-sorted view. */
  function DeleteListed(doc: Document, args: seq<string>): (r: Result<Document>)
    ensures |args| == 0 ==> r == Err(TooFewArguments)
    ensures |args| > 0 && ParseInt(args[0]).None? ==> r == Err(NotNumeric)
    ensures |args| > 0 && ParseInt(args[0]).Some? ==> r == DeleteShownNumber(doc, ParseInt(args[0]).value)
  {
    if |args| < 1 then Err(TooFewArguments)
    else match ParseInt(args[0])
      case None => Err(NotNumeric)
      case Some(n) => DeleteShownNumber(doc, n)
  }

  /** Removing the entry listed under `n`: refused unless `n` numbers a
      listed line; otherwise exactly that entry leaves the stored list and
      nothing else changes. */
  function DeleteShownNumber(doc: Document, n: int): (r: Result<Document>)
    ensures r.Ok? <==> 1 <= n <= |doc.ddls|
    ensures r.Err? ==> r.error == IndexMissing
    ensures r.Ok? ==> && Deadlines.Order(doc.ddls)[n - 1] < |doc.ddls|
                      && r.value.ddls == RemoveAt(doc.ddls, Deadlines.Order(doc.ddls)[n - 1])
                      && multiset(r.value.ddls) + multiset{Deadlines.SortedView(doc.ddls)[n - 1]} == multiset(doc.ddls)
                      && r.value.config == doc.config && r.value.roster == doc.roster
                      && r.value.shopping == doc.shopping
  {
    if 1 <= n <= |doc.ddls| then Ok(doc.(ddls := Deadlines.DeleteShown(doc.ddls, n - 1).value))
    else Err(IndexMissing)
  }

  /** The entry listed under `n` is the one `DeleteListed` removes: listing
      with no filter and deleting by the shown number agree. */
  lemma DeleteListedRemovesListedEntry(doc: Document, n: int)
    requires 1 <= n <= |doc.ddls| && |IntToString(n)| <= MaxDigits
    ensures var shown := Deadlines.SortedView(doc.ddls)[n - 1];
            && Deadlines.Listed(n, shown) in ListDdls(doc, [])
            && DeleteListed(doc, [IntToString(n)]).Ok?
            && multiset(DeleteListed(doc, [IntToString(n)]).value.ddls) + multiset{shown} == multiset(doc.ddls)
  {
    ParseIntRoundTrip(n);
    ListAllNumbered(doc);
  }

  /** Stored `[Exam, Paper]` with Paper due first: `list` shows Paper as [1],
      yet `delete 1` removes Exam; deleting by the listed number removes Paper. */
  lemma DeleteNumberIsNotListedNumber(doc: Document)
    requires doc.ddls == [Deadline(1, "2026-01-15", "Exam"), Deadline(2, "2025-12-20", "Paper")]
    ensures Deadlines.Listed(1, doc.ddls[1]) in ListDdls(doc, [])
    ensures DeleteDdl(doc, ["1"]) == Ok(doc.(ddls := [doc.ddls[1]]))
    ensures DeleteListed(doc, ["1"]) == Ok(doc.(ddls := [doc.ddls[0]]))
  {
    ExamPaperView(doc.ddls);
    ParseIntRoundTrip(1);
    assert IntToString(1) == "1";
    ListedFirst(doc);
    assert doc.ddls == [doc.ddls[0], doc.ddls[1]];
    RemoveFromPair(doc.ddls[0], doc.ddls[1]);
    DeleteListedFirst(doc);
  }

  lemma ExamPaperView(ddls: seq<Deadline>)
    requires ddls == [Deadline(1, "2026-01-15", "Exam"), Deadline(2, "2025-12-20", "Paper")]
    ensures Deadlines.SortedView(ddls) == [ddls[1], ddls[0]] && Deadlines.Order(ddls) == [1, 0]
  {
    FirstDifference(ddls[0].date, ddls[1].date, 3);
    Deadlines.TwoEntryView(ddls[0], ddls[1]);
  }

  lemma ListedFirst(doc: Document)
    requires |doc.ddls| == 2 && Deadlines.SortedView(doc.ddls) == [doc.ddls[1], doc.ddls[0]]
    ensures Deadlines.Listed(1, doc.ddls[1]) in ListDdls(doc, [])
  {
    ListAllNumbered(doc);
  }

  lemma DeleteListedFirst(doc: Document)
    requires |doc.ddls| == 2 && Deadlines.Order(doc.ddls) == [1, 0]
    requires ParseInt("1") == Some(1)
    ensures DeleteListed(doc, ["1"]) == Ok(doc.(ddls := [doc.ddls[0]]))
  {
    assert doc.ddls == [doc.ddls[0], doc.ddls[1]];
    RemoveFromPair(doc.ddls[0], doc.ddls[1]);
  }

  // ---------------------------------------------------------------------
  // Shopping list
  // ---------------------------------------------------------------------

  /** `shop add <item> [...]`: only the first word counts; one more of it. */
  function ShopAdd(doc: Document, args: seq<string>): (r: Result<Document>)
    ensures r.Err? <==> |args| == 0
    ensures r.Err? ==> r.error == TooFewArguments
    ensures r.Ok? ==> && Shopping.Lookup(r.value.shopping, args[0]) == Some(Shopping.CountOf(doc.shopping, args[0]) + 1)
                      && (forall n :: n != args[0] ==> Shopping.Lookup(r.value.shopping, n) == Shopping.Lookup(doc.shopping, n))
                      && r.value.config == doc.config && r.value.roster == doc.roster && r.value.ddls == doc.ddls
    ensures r.Ok? && Shopping.Lookup(doc.shopping, args[0]).None? ==>
              r.value.shopping == doc.shopping + [ShopItem(args[0], 1)]
    ensures r.Ok? && Shopping.Lookup(doc.shopping, args[0]).Some? ==>
              && |r.value.shopping| == |doc.shopping|
              && forall k :: 0 <= k < |doc.shopping| ==> r.value.shopping[k].name == doc.shopping[k].name
    ensures r.Ok? && WellFormed(doc) ==> WellFormed(r.value)
    ensures r.Ok? && Shopping.PositiveCounts(doc.shopping) ==> Shopping.PositiveCounts(r.value.shopping)
  {
    if |args| < 1 then Err(TooFewArguments)
    else Ok(doc.(shopping := Shopping.Add(doc.shopping, args[0])))
  }

  /** `shop list`: the items in insertion order, numbered from 1, or
      "(No items)" for an empty list. */
  function ShopList(doc: Document): (lines: seq<string>)
    ensures |doc.shopping| == 0 ==> lines == [Shopping.Indent + "(No items)"]
    ensures |doc.shopping| > 0 ==> |lines| == |doc.shopping|
    ensures forall k :: 0 <= k < |doc.shopping| ==> lines[k] == Shopping.Indent + Shopping.ItemLine(k + 1, doc.shopping[k], " × ")
  {
    Shopping.CliLines(doc.shopping)
  }

  /** `shop clear`: the list is empty afterwards, whatever it held, and
      nothing else changes; clearing twice is clearing once. */
  function ShopClear(doc: Document): (r: Document)
    ensures |r.shopping| == 0
    ensures r.config == doc.config && r.roster == doc.roster && r.ddls == doc.ddls
    ensures WellFormed(r)
  {
    doc.(shopping := [])
  }

  lemma ShopClearIdempotent(doc: Document)
    ensures ShopClear(ShopClear(doc)) == ShopClear(doc)
  {
  }

  // ---------------------------------------------------------------------
  // Duty roster
  // ---------------------------------------------------------------------

  /** `duty next`: the roster rotated left by one, refused below two people. */
  function DutyNext(doc: Document): (r: Result<Document>)
    ensures r.Err? <==> |doc.roster| < 2
    ensures r.Ok? ==> && |r.value.roster| == |doc.roster|
                      && multiset(r.value.roster) == multiset(doc.roster)
                      && Roster.Current(r.value.roster) == doc.roster[1]
                      && r.value.roster[|doc.roster| - 1] == doc.roster[0]
                      && r.value.roster == doc.roster[1..] + [doc.roster[0]]
                      && r.value.config == doc.config && r.value.ddls == doc.ddls
                      && r.value.shopping == doc.shopping
  {
    match Roster.Rotate(doc.roster)
    case Ok(roster) => Ok(doc.(roster := roster))
    case Err(e) => Err(e)
  }

  // ---------------------------------------------------------------------
  // Daily stamp, loading and synchronisation
  // ---------------------------------------------------------------------

  /** `check_daily_reminder`: stamp today's date; the document is saved
      exactly when the stamp changes. */
  function CheckDailyReminder(doc: Document, today: Date): (r: (Document, bool))
    requires IsCalendarDate(today)
    ensures r.0.config.lastOpened == IsoFormat(today)
    ensures r.1 <==> doc.config.lastOpened != IsoFormat(today)
    ensures !r.1 ==> r.0 == doc
    ensures r.0.roster == doc.roster && r.0.ddls == doc.ddls && r.0.shopping == doc.shopping
  {
    var stamp := IsoFormat(today);
    if doc.config.lastOpened != stamp then (doc.(config := doc.config.(lastOpened := stamp)), true)
    else (doc, false)
  }

  /** A second check on the same day changes nothing and saves nothing. */
  lemma DailyReminderIdempotent(doc: Document, today: Date)
    requires IsCalendarDate(today)
    ensures var once := CheckDailyReminder(doc, today).0;
            CheckDailyReminder(once, today) == (once, false)
  {
  }

  /** `DormHelper()`: load the file (or the defaults), then stamp the day. */
  function Open(file: FileState, today: Date): (r: (Document, bool))
    requires IsCalendarDate(today)
    ensures file.Parsed? ==> && r.0.ddls == file.doc.ddls && r.0.roster == file.doc.roster
                             && r.0.shopping == file.doc.shopping
    ensures r.0.config.lastOpened == IsoFormat(today)
    ensures r.1 <==> Load(file).config.lastOpened != IsoFormat(today)
    ensures !file.Parsed? ==> r.0 == Default.(config := Config(IsoFormat(today))) && r.1
  {
    CheckDailyReminder(Load(file), today)
  }

  /** The git commands the program starts. */
  datatype GitCommand = PullRebase | AddFile(path: string) | Commit(message: string) | PushChanges

  /** `startup_sync`: after a successful `git pull --rebase` the document is
      reloaded from the file as the pull left it; after a failed one it is
      kept as it was. */
  function StartupSync(doc: Document, pullOk: bool, pulled: FileState): (r: (Document, bool))
    ensures r.1 == pullOk
    ensures pullOk ==> r.0 == Load(pulled)
    ensures !pullOk ==> r.0 == doc
  {
    if pullOk then (Load(pulled), true) else (doc, false)
  }

  /** `shutdown_sync`: the commands attempted.  The commit and the push are
      attempted exactly when `git add` succeeds, whatever the commit's own
      outcome; the document is not touched. */
  function ShutdownSync(today: Date, addOk: bool): (cmds: seq<GitCommand>)
    requires IsCalendarDate(today)
    ensures |cmds| >= 1 && cmds[0] == AddFile(DataFile)
    ensures addOk <==> Commit("Update data " + IsoFormat(today)) in cmds
    ensures addOk <==> PushChanges in cmds
    ensures PullRebase !in cmds
    ensures addOk ==> |cmds| == 3 && cmds[1] == Commit("Update data " + IsoFormat(today)) && cmds[2] == PushChanges
    ensures !addOk ==> |cmds| == 1
  {
    if addOk then [AddFile(DataFile), Commit("Update data " + IsoFormat(today)), PushChanges]
    else [AddFile(DataFile)]
  }

  /** `save` and `quit`: write the document, then synchronise.  The file
      read back is the document written. */
  function SaveAndSync(doc: Document, today: Date, addOk: bool): (r: (FileState, seq<GitCommand>))
    requires IsCalendarDate(today)
    ensures Load(r.0) == doc
    ensures r.1 == ShutdownSync(today, addOk)
  {
    (Save(doc), ShutdownSync(today, addOk))
  }

  /** Saving and opening again on the same day gives back the document and
      writes nothing more. */
  lemma SaveOpenRoundTrip(doc: Document, today: Date, addOk: bool)
    requires IsCalendarDate(today)
    requires doc.config.lastOpened == IsoFormat(today)
    ensures Open(SaveAndSync(doc, today, addOk).0, today) == (doc, false)
  {
  }
}

=== FILE: results.dfy ===
/** Failure-carrying values shared by every operation of the dormitory helper.

    The Python front ends report a rejected command by printing a message (the
    command line) or by showing a warning box (the graphical front end) and
    then returning without touching the document; an uncaught Python exception
    inside a Tk callback is reported by Tk and likewise leaves the document as
    it was.  Both become an `Err` here, and the caller keeps its old document.
 */
module Results {

  datatype Option<+T> = None | Some(value: T)

  /** Why an operation left the document unchanged. */
  datatype Error =
    | TooFewArguments   // "Format error!" of the command line
    | BadDate           // strptime rejected the date
    | NotNumeric        // int() rejected the index of `delete`
    | IndexMissing      // "Index does not exist!"
    | TooFewPeople      // "At least 2 duty personnel are required to rotate!"
    | EmptyField        // "Date and task cannot be empty"
    | EmptyRoster       // "List cannot be empty"
    | IndexError        // Python IndexError escaping a Tk callback
    | KeyError          // Python KeyError escaping a Tk callback
    | StopIteration     // Python StopIteration escaping a Tk callback

  datatype Result<+T> = Ok(value: T) | Err(error: Error)
}

=== FILE: roster.dfy ===
/** The duty roster: an ordered list of names whose head is on duty today.
    Both front ends rotate it left by one, and the graphical front end
    replaces it with the names typed one per line in its edit box.
 */
module Roster {
  import opened Results
  import opened Strings

  /** `duty_next` and `rotate_duty`: refuse fewer than two people, otherwise
      move the person on duty to the back. */
  function Rotate(roster: seq<string>): (r: Result<seq<string>>)
    ensures r.Err? <==> |roster| < 2
    ensures r.Err? ==> r.error == TooFewPeople
    ensures r.Ok? ==> && |r.value| == |roster|
                      && multiset(r.value) == multiset(roster)
                      && r.value[0] == roster[1]
                      && r.value[|r.value| - 1] == roster[0]
                      && forall k :: 0 <= k < |roster| - 1 ==> r.value[k] == roster[k + 1]
  {
    if |roster| < 2 then Err(TooFewPeople)
    else
      assert roster == [roster[0]] + roster[1..];
      Ok(roster[1..] + [roster[0]])
  }

  /** The roster after one press of the rotate command, refused or not. */
  function Step(roster: seq<string>): seq<string> {
    if |roster| < 2 then roster else roster[1..] + [roster[0]]
  }

  /** One press is what `Rotate` gives, or no change when it refuses. */
  lemma StepIsRotate(roster: seq<string>)
    ensures Rotate(roster).Ok? ==> Step(roster) == Rotate(roster).value
    ensures Rotate(roster).Err? ==> Step(roster) == roster
  {
  }

  /** The roster after `n` presses. */
  function RotateTimes(roster: seq<string>, n: nat): seq<string>
    decreases n
  {
    if n == 0 then roster else Step(RotateTimes(roster, n - 1))
  }

  /** Up to one full round, `n` rotations start the roster at position `n`. */
  lemma {:induction false} RotateTimesShift(roster: seq<string>, n: nat)
    requires |roster| >= 2 && n <= |roster|
    ensures RotateTimes(roster, n) == roster[n..] + roster[..n]
    decreases n
  {
    if n == 0 {
      assert roster[0..] + roster[..0] == roster;
    } else {
      var prev := RotateTimes(roster, n - 1);
      RotateTimesShift(roster, n - 1);
      assert RotateTimes(roster, n) == Step(prev);
      StepShift(roster, n - 1);
    }
  }

  /** One rotation of the roster started at `m` starts it at `m + 1`. */
  lemma StepShift(roster: seq<string>, m: nat)
    requires |roster| >= 2 && m < |roster|
    ensures Step(roster[m..] + roster[..m]) == roster[m + 1..] + roster[..m + 1]
  {
    var s := roster[m..] + roster[..m];
    assert s[0] == roster[m];
    assert s[1..] == roster[m + 1..] + roster[..m];
    assert roster[..m] + [roster[m]] == roster[..m + 1];
  }

  /** As many rotations as there are people bring the roster back. */
  lemma FullCycle(roster: seq<string>)
    requires |roster| >= 2
    ensures RotateTimes(roster, |roster|) == roster
  {
    RotateTimesShift(roster, |roster|);
    assert roster[|roster|..] + roster[..|roster|] == roster;
  }

  /** `a + b` presses are `a` presses followed by `b`. */
  lemma {:induction false} RotateTimesAdd(roster: seq<string>, a: nat, b: nat)
    ensures RotateTimes(roster, a + b) == RotateTimes(RotateTimes(roster, a), b)
    decreases b
  {
    if b > 0 {
      RotateTimesAdd(roster, a, b - 1);
    }
  }

  /** The roster repeats with period its length: `n` presses and a full
      round more leave it as `n` presses do. */
  lemma Periodic(roster: seq<string>, n: nat)
    requires |roster| >= 2
    ensures RotateTimes(roster, |roster| + n) == RotateTimes(roster, n)
  {
    RotateTimesAdd(roster, |roster|, n);
    FullCycle(roster);
  }

  /** A roster of fewer than two never changes. */
  lemma {:induction false} SmallRosterFixed(roster: seq<string>, n: nat)
    requires |roster| < 2
    ensures RotateTimes(roster, n) == roster
    decreases n
  {
    if n > 0 {
      SmallRosterFixed(roster, n - 1);
    }
  }

  /** The person on duty: the head of the roster, or "None". */
  function Current(roster: seq<string>): (who: string)
    ensures |roster| > 0 ==> who == roster[0] && who in roster
    ensures |roster| == 0 ==> who == "None"
  {
    if |roster| > 0 then roster[0] else "None"
  }

  /** After `m` presses within the first round, the person at position `m` is on duty. */
  lemma CurrentAfterRotations(roster: seq<string>, m: nat)
    requires |roster| >= 2 && m < |roster|
    ensures Current(RotateTimes(roster, m)) == roster[m]
  {
    RotateTimesShift(roster, m);
  }

  // ---------------------------------------------------------------------
  // Replacing the roster from the edit box
  // ---------------------------------------------------------------------

  /** `names` are the lines of `lines` at the increasing positions `pos`,
      each passed through `f`, and every line at no position in `pos` is
      blank. */
  ghost predicate KeptBy(f: string -> string, lines: seq<string>, names: seq<string>, pos: seq<nat>) {
    && |pos| == |names|
    && (forall k, l :: 0 <= k < l < |pos| ==> pos[k] < pos[l])
    && (forall k :: 0 <= k < |pos| ==> pos[k] < |lines| && names[k] == f(lines[pos[k]]))
    && (forall j :: 0 <= j < |lines| && j !in pos ==> AllSpace(lines[j]))
  }

  /** `names` is what the blank-line filter keeps of `lines`: the stripped
      lines at some increasing positions, every other line being blank. */
  ghost predicate Filtered(lines: seq<string>, names: seq<string>) {
    FilteredBy(Strip, lines, names)
  }

  ghost predicate FilteredBy(f: string -> string, lines: seq<string>, names: seq<string>) {
    exists pos: seq<nat> :: KeptBy(f, lines, names, pos)
  }

  /** `[name.strip() for name in lines if name.strip()]`: the stripped
      non-blank lines, in order. */
  function NonBlank(lines: seq<string>): (names: seq<string>)
    ensures |names| <= |lines|
    ensures forall k :: 0 <= k < |names| ==>
              |names[k]| > 0 && !IsSpace(names[k][0]) && !IsSpace(names[k][|names[k]| - 1])
    ensures |names| == 0 <==> forall k :: 0 <= k < |lines| ==> AllSpace(lines[k])
    decreases |lines|
  {
    if |lines| == 0 then []
    else
      var rest := NonBlank(lines[1..]);
      assert forall k :: 1 <= k < |lines| ==> lines[k] == lines[1..][k - 1];
      var name := Strip(lines[0]);
      if |name| > 0 then [name] + rest else rest
  }

  /** The filter keeps exactly the non-blank lines, stripped, in order. */
  lemma {:induction false} NonBlankFiltered(lines: seq<string>)
    ensures Filtered(lines, NonBlank(lines))
    decreases |lines|
  {
    if |lines| == 0 {
      assert KeptBy(Strip, lines, [], []);
    } else {
      NonBlankFiltered(lines[1..]);
      NonBlankCons(lines);
      FilteredStep(Strip, lines, NonBlank(lines[1..]), |Strip(lines[0])| > 0);
    }
  }

  /** The filter of a non-empty list: the head, if kept, before the filter
      of the rest. */
  lemma NonBlankCons(lines: seq<string>)
    requires |lines| > 0
    ensures NonBlank(lines) == (if |Strip(lines[0])| > 0 then [Strip(lines[0])] else []) + NonBlank(lines[1..])
  {
    if |Strip(lines[0])| == 0 {
      assert [] + NonBlank(lines[1..]) == NonBlank(lines[1..]);
    }
  }

  /** Filtering the head line and then the rest is filtering the whole. */
  lemma FilteredStep(f: string -> string, lines: seq<string>, rest: seq<string>, keep: bool)
    requires |lines| > 0 && FilteredBy(f, lines[1..], rest)
    requires !keep ==> AllSpace(lines[0])
    ensures FilteredBy(f, lines, (if keep then [f(lines[0])] else []) + rest)
  {
    var p :| KeptBy(f, lines[1..], rest, p);
    var pos := KeptStep(f, lines, rest, p, keep);
  }

  function Shift(pos: seq<nat>): (r: seq<nat>)
    ensures |r| == |pos| && forall k :: 0 <= k < |pos| ==> r[k] == pos[k] + 1
  {
    seq(|pos|, k requires 0 <= k < |pos| => pos[k] + 1)
  }

  /** Positions for the rest of the lines, moved one line down and headed
      by the first line when it is kept, are positions for the whole. */
  lemma KeptStep(f: string -> string, lines: seq<string>, rest: seq<string>, p: seq<nat>, keep: bool)
    returns (pos: seq<nat>)
    requires |lines| > 0 && KeptBy(f, lines[1..], rest, p)
    requires !keep ==> AllSpace(lines[0])
    ensures KeptBy(f, lines, (if keep then [f(lines[0])] else []) + rest, pos)
  {
    ShiftedKept(f, lines, rest, p);
    if keep {
      pos := [0] + Shift(p);
      KeptHead(f, lines, rest, Shift(p));
    } else {
      pos := Shift(p);
      assert [] + rest == rest;
    }
  }

  /** Positions after the head, with the head's own position in front. */
  lemma KeptHead(f: string -> string, lines: seq<string>, rest: seq<string>, q: seq<nat>)
    requires |lines| > 0 && |q| == |rest|
    requires forall k, l :: 0 <= k < l < |q| ==> q[k] < q[l]
    requires forall k :: 0 <= k < |q| ==> 0 < q[k] < |lines| && rest[k] == f(lines[q[k]])
    requires forall j :: 1 <= j < |lines| && j !in q ==> AllSpace(lines[j])
    ensures KeptBy(f, lines, [f(lines[0])] + rest, [0] + q)
  {
    var pos: seq<nat> := [0] + q;
    var names := [f(lines[0])] + rest;
    forall k | 1 <= k < |pos|
      ensures pos[k] == q[k - 1] && names[k] == rest[k - 1]
    { }
    forall j | 0 <= j < |lines| && j !in pos
      ensures AllSpace(lines[j])
    {
      assert j != 0 && j !in q;
    }
  }

  /** The positions of the rest, moved one line down, pick the same names
      out of the whole; every line after the head at none of them is blank. */
  lemma ShiftedKept(f: string -> string, lines: seq<string>, rest: seq<string>, p: seq<nat>)
    requires |lines| > 0 && KeptBy(f, lines[1..], rest, p)
    ensures forall k, l :: 0 <= k < l < |p| ==> Shift(p)[k] < Shift(p)[l]
    ensures forall k :: 0 <= k < |p| ==> 0 < Shift(p)[k] < |lines| && rest[k] == f(lines[Shift(p)[k]])
    ensures forall j :: 1 <= j < |lines| && j !in Shift(p) ==> AllSpace(lines[j])
  {
    var q := Shift(p);
    forall k | 0 <= k < |p|
      ensures 0 < q[k] < |lines| && rest[k] == f(lines[q[k]])
    {
      assert lines[1..][p[k]] == lines[q[k]];
    }
    forall j | 1 <= j < |lines| && j !in q
      ensures AllSpace(lines[j])
    {
      forall m | 0 <= m < |p|
        ensures p[m] != j - 1
      {
        assert q[m] == p[m] + 1;
      }
      assert lines[1..][j - 1] == lines[j];
    }
  }

  /** `save_roster`: the stripped non-blank lines of the box, in order;
      an all-blank box is refused with "List cannot be empty". */
  function RosterFromText(text: string): (r: Result<seq<string>>)
    ensures r.Err? <==> AllSpace(text)
    ensures r.Err? ==> r.error == EmptyRoster
    ensures r.Ok? ==> |r.value| > 0 && forall k :: 0 <= k < |r.value| ==> Strip(r.value[k]) == r.value[k] && |r.value[k]| > 0
    ensures r.Ok? ==> Filtered(Split(Strip(text), "\n"), r.value)
  {
    var content := Strip(text);
    var names := NonBlank(Split(content, "\n"));
    BlankLinesBlankText(Split(content, "\n"));
    NonBlankFiltered(Split(content, "\n"));
    if |names| == 0 then Err(EmptyRoster) else Ok(names)
  }

  /** Lines that are all blank join, with newlines, into a blank text. */
  lemma {:induction false} BlankLinesBlankText(lines: seq<string>)
    requires |lines| >= 1
    ensures (forall k :: 0 <= k < |lines| ==> AllSpace(lines[k])) ==> AllSpace(Join(lines, "\n"))
    decreases |lines|
  {
    if |lines| > 1 && forall k :: 0 <= k < |lines| ==> AllSpace(lines[k]) {
      assert AllSpace(lines[0]);
      assert forall k :: 0 <= k < |lines| - 1 ==> lines[1..][k] == lines[k + 1];
      BlankLinesBlankText(lines[1..]);
      var rest := Join(lines[1..], "\n");
      assert Join(lines, "\n") == lines[0] + "\n" + rest;
    }
  }

  /** A name the edit box gives back unchanged: not blank at either end and
      without a line break. */
  predicate Tidy(name: string) {
    |name| > 0 && !IsSpace(name[0]) && !IsSpace(name[|name| - 1]) && '\n' !in name
  }

  /** Opening the editor and pressing OK keeps the roster: the box shows
      the names one per line, and Tk's text read-back adds a final newline. */
  lemma EditRoundTrip(roster: seq<string>)
    requires |roster| > 0
    requires forall k :: 0 <= k < |roster| ==> Tidy(roster[k])
    ensures RosterFromText(Join(roster, "\n") + "\n") == Ok(roster)
  {
    var body := Join(roster, "\n");
    EditBoxBody(roster);
    SplitTidy(roster);
    TidyNamesKept(roster);
    TextGivesNames(body + "\n", roster);
  }

  /** The text read back from the box strips to the newline join. */
  lemma EditBoxBody(roster: seq<string>)
    requires |roster| > 0
    requires forall k :: 0 <= k < |roster| ==> Tidy(roster[k])
    ensures Strip(Join(roster, "\n") + "\n") == Join(roster, "\n")
  {
    var body := Join(roster, "\n");
    JoinEnds(roster);
    assert |body| > 0 && !IsSpace(body[0]) && !IsSpace(body[|body| - 1]);
    assert AllSpace("\n") by { assert "\n"[0] == '\n'; }
    StripTrailing(body, "\n");
  }

  /** Splitting the newline join of tidy names gives the names. */
  lemma SplitTidy(roster: seq<string>)
    requires |roster| > 0
    requires forall k :: 0 <= k < |roster| ==> Tidy(roster[k])
    ensures Split(Join(roster, "\n"), "\n") == roster
  {
    assert forall k :: 0 <= k < |roster| ==> '\n' !in roster[k];
    SplitJoin(roster, '\n');
  }

  /** A text whose stripped lines filter to some names gives those names. */
  lemma TextGivesNames(text: string, names: seq<string>)
    requires |names| > 0
    requires NonBlank(Split(Strip(text), "\n")) == names
    ensures RosterFromText(text) == Ok(names)
  {
  }

  /** A newline join of tidy names starts and ends with non-whitespace. */
  lemma {:induction false} JoinEnds(names: seq<string>)
    requires |names| > 0
    requires forall k :: 0 <= k < |names| ==> Tidy(names[k])
    ensures var s := Join(names, "\n");
            |s| > 0 && !IsSpace(s[0]) && !IsSpace(s[|s| - 1])
    decreases |names|
  {
    if |names| > 1 {
      assert forall k :: 0 <= k < |names| - 1 ==> names[1..][k] == names[k + 1];
      JoinEnds(names[1..]);
    }
  }

  /** Tidy names pass the blank-line filter unchanged. */
  lemma {:induction false} TidyNamesKept(names: seq<string>)
    requires forall k :: 0 <= k < |names| ==> Tidy(names[k])
    ensures NonBlank(names) == names
    decreases |names|
  {
    if |names| > 0 {
      assert forall k :: 0 <= k < |names| - 1 ==> names[1..][k] == names[k + 1];
      TidyNamesKept(names[1..]);
      assert Strip(names[0]) == names[0];
      assert names == [names[0]] + names[1..];
    }
  }
}

=== FILE: sequences.dfy ===
/** Sequence operations shared by the deadline and shopping views:
    `list.pop(k)` and Python's stable `sorted(..., key=...)` on a string key.
 */
module Sequences {
  import opened Strings

  /** `s` after `s.pop(k)`: the element at `k` gone, the others in order. */
  function RemoveAt<T>(s: seq<T>, k: nat): (r: seq<T>)
    requires k < |s|
    ensures |r| == |s| - 1
    ensures forall j :: 0 <= j < k ==> r[j] == s[j]
    ensures forall j :: k <= j < |r| ==> r[j] == s[j + 1]
    ensures multiset(r) + multiset{s[k]} == multiset(s)
  {
    assert s == s[..k] + [s[k]] + s[k + 1..];
    s[..k] + s[k + 1..]
  }

  /** Popping from a two-element list leaves the other element. */
  lemma RemoveFromPair<T>(a: T, b: T)
    ensures RemoveAt([a, b], 0) == [b]
    ensures RemoveAt([a, b], 1) == [a]
  {
    assert RemoveAt([a, b], 0) == [a, b][1..];
    assert RemoveAt([a, b], 1) == [a, b][..1];
  }

  /** The keys never decrease along `s`. */
  predicate SortedBy<T>(s: seq<T>, key: T -> string) {
    forall i, j :: 0 <= i < j < |s| ==> LessEq(key(s[i]), key(s[j]))
  }

  /** Elements with equal keys appear in increasing `rank`. */
  predicate StableBy<T>(s: seq<T>, key: T -> string, rank: T -> int) {
    forall i, j :: 0 <= i < j < |s| && key(s[i]) == key(s[j]) ==> rank(s[i]) < rank(s[j])
  }

  /** `x` placed before the first element whose key is not smaller than its own. */
  function Insert<T>(x: T, s: seq<T>, key: T -> string): (r: seq<T>)
    ensures |r| == |s| + 1
  {
    if |s| == 0 || LessEq(key(x), key(s[0])) then [x] + s
    else
      assert s == [s[0]] + s[1..];
      [s[0]] + Insert(x, s[1..], key)
  }

  /** Python's `sorted(s, key=key)` on a string key, as an insertion sort:
      the same elements, the same number of times each. */
  function SortBy<T>(s: seq<T>, key: T -> string): (r: seq<T>)
    ensures |r| == |s|
  {
    if |s| == 0 then []
    else Insert(s[0], SortBy(s[1..], key), key)
  }

  /** Inserting adds exactly one copy of `x`. */
  lemma {:induction false} InsertPermutes<T>(x: T, s: seq<T>, key: T -> string)
    ensures multiset(Insert(x, s, key)) == multiset(s) + multiset{x}
    decreases |s|
  {
    if |s| > 0 && !LessEq(key(x), key(s[0])) {
      InsertPermutes(x, s[1..], key);
      assert s == [s[0]] + s[1..];
    }
  }

  /** `sorted` returns the same elements, the same number of times each. */
  lemma {:induction false} SortByPermutes<T>(s: seq<T>, key: T -> string)
    ensures multiset(SortBy(s, key)) == multiset(s)
    decreases |s|
  {
    if |s| > 0 {
      SortByPermutes(s[1..], key);
      InsertPermutes(s[0], SortBy(s[1..], key), key);
      assert s == [s[0]] + s[1..];
    }
  }

  lemma InsertMembers<T>(x: T, s: seq<T>, key: T -> string)
    ensures forall y :: y in Insert(x, s, key) ==> y == x || y in s
  {
    InsertPermutes(x, s, key);
    forall y | y in Insert(x, s, key)
      ensures y == x || y in s
    {
      assert y in multiset(Insert(x, s, key));
    }
  }

  lemma SortByMembers<T>(s: seq<T>, key: T -> string)
    ensures forall y :: y in SortBy(s, key) ==> y in s
  {
    SortByPermutes(s, key);
    forall y | y in SortBy(s, key)
      ensures y in s
    {
      assert y in multiset(SortBy(s, key));
    }
  }

  lemma {:induction false} InsertSorted<T>(x: T, s: seq<T>, key: T -> string)
    requires SortedBy(s, key)
    ensures SortedBy(Insert(x, s, key), key)
    decreases |s|
  {
    var r := Insert(x, s, key);
    if |s| == 0 {
    } else if LessEq(key(x), key(s[0])) {
      forall j | 1 <= j < |r|
        ensures LessEq(key(r[0]), key(r[j]))
      {
        if j > 1 {
          LessEqTransitive(key(x), key(s[0]), key(s[j - 1]));
        }
      }
    } else {
      var t := Insert(x, s[1..], key);
      InsertSorted(x, s[1..], key);
      InsertMembers(x, s[1..], key);
      LessEqTotal(key(x), key(s[0]));
      forall j | 1 <= j < |r|
        ensures LessEq(key(r[0]), key(r[j]))
      {
        assert r[j] == t[j - 1] && r[j] in t;
        if r[j] != x {
          assert r[j] in s[1..];
          var m :| 0 <= m < |s[1..]| && s[1..][m] == r[j];
          assert s[m + 1] == r[j];
        }
      }
    }
  }

  /** `sorted` leaves the keys in non-decreasing order. */
  lemma {:induction false} SortBySorted<T>(s: seq<T>, key: T -> string)
    ensures SortedBy(SortBy(s, key), key)
    decreases |s|
  {
    if |s| > 0 {
      SortBySorted(s[1..], key);
      InsertSorted(s[0], SortBy(s[1..], key), key);
    }
  }

  lemma {:induction false} InsertStable<T>(x: T, s: seq<T>, key: T -> string, rank: T -> int)
    requires StableBy(s, key, rank)
    requires forall y :: y in s ==> rank(x) < rank(y)
    ensures StableBy(Insert(x, s, key), key, rank)
    decreases |s|
  {
    if |s| == 0 || LessEq(key(x), key(s[0])) {
      assert Insert(x, s, key) == [x] + s;
      forall k | 0 <= k < |s| && key(s[k]) == key(x)
        ensures rank(x) < rank(s[k])
      {
        assert s[k] in s;
      }
      ConsStable(x, s, key, rank);
    } else {
      forall i, j | 0 <= i < j < |s[1..]| && key(s[1..][i]) == key(s[1..][j])
        ensures rank(s[1..][i]) < rank(s[1..][j])
      {
        assert s[1..][i] == s[i + 1] && s[1..][j] == s[j + 1];
      }
      InsertStable(x, s[1..], key, rank);
      var t := Insert(x, s[1..], key);
      assert Insert(x, s, key) == [s[0]] + t;
      forall k | 0 <= k < |t| && key(t[k]) == key(s[0])
        ensures rank(s[0]) < rank(t[k])
      {
        HeadBeforeInserted(x, s, key, rank, k);
      }
      ConsStable(s[0], t, key, rank);
    }
  }

  /** A stable list stays stable behind an element ranked below every later
      element with its key. */
  lemma ConsStable<T>(h: T, t: seq<T>, key: T -> string, rank: T -> int)
    requires StableBy(t, key, rank)
    requires forall k :: 0 <= k < |t| && key(t[k]) == key(h) ==> rank(h) < rank(t[k])
    ensures StableBy([h] + t, key, rank)
  {
    var r := [h] + t;
    forall i, j | 0 <= i < j < |r| && key(r[i]) == key(r[j])
      ensures rank(r[i]) < rank(r[j])
    {
      assert r[j] == t[j - 1];
      if i > 0 {
        assert r[i] == t[i - 1];
      }
    }
  }

  /** When `x` goes behind the head, the head is ranked below every element
      with its key in the rest of the result. */
  lemma HeadBeforeInserted<T>(x: T, s: seq<T>, key: T -> string, rank: T -> int, k: nat)
    requires StableBy(s, key, rank)
    requires |s| > 0 && !LessEq(key(x), key(s[0]))
    requires k < |Insert(x, s[1..], key)| && key(Insert(x, s[1..], key)[k]) == key(s[0])
    ensures rank(s[0]) < rank(Insert(x, s[1..], key)[k])
  {
    var t := Insert(x, s[1..], key);
    InsertMembers(x, s[1..], key);
    assert t[k] in t;
    if t[k] == x {
      LessEqReflexive(key(x));
      assert false;
    }
    var m :| 0 <= m < |s[1..]| && s[1..][m] == t[k];
    assert s[m + 1] == t[k];
  }

  /** `sorted` is stable: when the input is listed in increasing `rank`,
      elements with equal keys stay in increasing `rank`. */
  lemma {:induction false} SortByStable<T>(s: seq<T>, key: T -> string, rank: T -> int)
    requires forall i, j :: 0 <= i < j < |s| ==> rank(s[i]) < rank(s[j])
    ensures StableBy(SortBy(s, key), key, rank)
    decreases |s|
  {
    if |s| > 0 {
      var t := SortBy(s[1..], key);
      forall i, j | 0 <= i < j < |s[1..]|
        ensures rank(s[1..][i]) < rank(s[1..][j])
      {
        assert s[1..][i] == s[i + 1] && s[1..][j] == s[j + 1];
      }
      SortByStable(s[1..], key, rank);
      SortByMembers(s[1..], key);
      forall y | y in t
        ensures rank(s[0]) < rank(y)
      {
        assert y in s[1..];
        var m :| 0 <= m < |s[1..]| && s[1..][m] == y;
        assert s[m + 1] == y;
      }
      InsertStable(s[0], t, key, rank);
    }
  }
}

=== FILE: shopping.dfy ===
/** The shopping list: a dictionary from item name to count, kept here as a
    sequence of items with distinct names in insertion order.

    The command line adds and lists items in insertion order.  The graphical
    front end shows them sorted by name as lines `[i] name x count` and, to
    delete the selected line, cuts the name back out of the line text with
    `line.split(" x ")[0].split("] ")[1]`.
 */
module Shopping {
  import opened Results
  import opened Strings
  import opened Sequences
  import opened Store

  /** The position of the first item called `name`. */
  function IndexFrom(shop: seq<ShopItem>, name: string, from: nat): (r: Option<nat>)
    ensures r.Some? ==> from <= r.value < |shop| && shop[r.value].name == name
    ensures forall k :: from <= k < |shop| && (r.None? || k < r.value) ==> shop[k].name != name
    decreases |shop| - from
  {
    if from >= |shop| then None
    else if shop[from].name == name then Some(from)
    else IndexFrom(shop, name, from + 1)
  }

  function IndexOf(shop: seq<ShopItem>, name: string): Option<nat> {
    IndexFrom(shop, name, 0)
  }

  /** `shop.get(name)`. */
  function Lookup(shop: seq<ShopItem>, name: string): Option<int> {
    match IndexOf(shop, name)
    case Some(k) => Some(shop[k].count)
    case None => None
  }

  /** Every count is at least one, as a list built by `Add` has it. */
  predicate PositiveCounts(shop: seq<ShopItem>) {
    forall k :: 0 <= k < |shop| ==> shop[k].count >= 1
  }

  /** The count of `name`, zero when absent. */
  function CountOf(shop: seq<ShopItem>, name: string): int {
    match Lookup(shop, name)
    case Some(c) => c
    case None => 0
  }

  /** `shop_add`: one more of `name`; a new name starts at one and goes last.
      No other entry changes, and names stay distinct. */
  function Add(shop: seq<ShopItem>, name: string): (r: seq<ShopItem>)
    ensures Lookup(r, name) == Some(CountOf(shop, name) + 1)
    ensures forall n :: n != name ==> Lookup(r, n) == Lookup(shop, n)
    ensures Lookup(shop, name).None? ==> r == shop + [ShopItem(name, 1)]
    ensures Lookup(shop, name).Some? ==> |r| == |shop| && forall k :: 0 <= k < |r| ==> r[k].name == shop[k].name
    ensures UniqueNames(shop) ==> UniqueNames(r)
    ensures PositiveCounts(shop) ==> PositiveCounts(r)
  {
    match IndexOf(shop, name)
    case Some(k) =>
      var r := shop[k := ShopItem(name, shop[k].count + 1)];
      SameNamesLookups(shop, r);
      r
    case None =>
      var r := shop + [ShopItem(name, 1)];
      AppendLookups(shop, ShopItem(name, 1));
      r
  }

  /** A list with the same names at the same positions as `a` finds every
      name at the same place. */
  lemma SameNamesLookups(a: seq<ShopItem>, b: seq<ShopItem>)
    requires |a| == |b|
    requires forall k :: 0 <= k < |a| ==> a[k].name == b[k].name
    ensures forall n :: IndexOf(b, n) == IndexOf(a, n)
  {
    forall n
      ensures IndexOf(b, n) == IndexOf(a, n)
    {
      IndexAgree(a, b, n, 0);
    }
  }

  /** Appending an item moves no name and makes the new name findable at the end. */
  lemma AppendLookups(a: seq<ShopItem>, it: ShopItem)
    ensures forall n :: n != it.name ==> IndexOf(a + [it], n) == IndexOf(a, n)
    ensures IndexOf(a, it.name).None? ==> IndexOf(a + [it], it.name) == Some(|a|)
  {
    var b := a + [it];
    forall n
      ensures IndexOf(b, n) == if IndexOf(a, n).Some? then IndexOf(a, n)
                                else if n == it.name then Some(|a|) else None
    {
      IndexAgree(a, b, n, 0);
      assert IndexFrom(b, n, |a|) == if n == it.name then Some(|a|) else IndexFrom(b, n, |a| + 1);
    }
  }

  /** Two lists with the same names at the same positions find a name at
      the same place; where the shorter has none, the longer is searched on
      from the end of the shorter. */
  lemma {:induction false} IndexAgree(a: seq<ShopItem>, b: seq<ShopItem>, name: string, from: nat)
    requires |a| <= |b|
    requires forall k :: from <= k < |a| ==> a[k].name == b[k].name
    requires from <= |a|
    ensures IndexFrom(a, name, from).Some? ==> IndexFrom(b, name, from) == IndexFrom(a, name, from)
    ensures IndexFrom(a, name, from).None? ==> IndexFrom(b, name, from) == IndexFrom(b, name, |a|)
    decreases |b| - from
  {
    if from < |a| && a[from].name != name {
      IndexAgree(a, b, name, from + 1);
    }
  }

  /** `shop_add` repeated `n` times. */
  function AddTimes(shop: seq<ShopItem>, name: string, n: nat): seq<ShopItem>
  {
    if n == 0 then shop else Add(AddTimes(shop, name, n - 1), name)
  }

  /** `n` additions raise the count by `n` (so from nothing to `n`) and leave
      every other item as it was. */
  lemma {:induction false} AddTimesCount(shop: seq<ShopItem>, name: string, n: nat)
    ensures CountOf(AddTimes(shop, name, n), name) == CountOf(shop, name) + n
    ensures n > 0 ==> Lookup(AddTimes(shop, name, n), name).Some?
    ensures forall m :: m != name ==> Lookup(AddTimes(shop, name, n), m) == Lookup(shop, m)
    decreases n
  {
    if n > 0 {
      AddTimesCount(shop, name, n - 1);
    }
  }

  /** `del shop[name]`: `KeyError` when `name` is absent; otherwise the item
      is gone, every other name keeps its count and the order is kept. */
  function Remove(shop: seq<ShopItem>, name: string): (r: Result<seq<ShopItem>>)
    ensures r.Err? <==> Lookup(shop, name).None?
    ensures r.Err? ==> r.error == KeyError
    ensures r.Ok? ==> |r.value| == |shop| - 1
    ensures r.Ok? ==> exists k :: 0 <= k < |shop| && shop[k].name == name && r.value == RemoveAt(shop, k)
    ensures r.Ok? ==> forall n :: n != name ==> Lookup(r.value, n) == Lookup(shop, n)
    ensures r.Ok? && UniqueNames(shop) ==> Lookup(r.value, name).None? && UniqueNames(r.value)
  {
    match IndexOf(shop, name)
    case None => Err(KeyError)
    case Some(k) =>
      RemoveLookups(shop, k);
      Ok(RemoveAt(shop, k))
  }

  /** Removing the item at `k` leaves every other name findable, and with
      distinct names leaves the removed name absent. */
  lemma RemoveLookups(shop: seq<ShopItem>, k: nat)
    requires k < |shop|
    ensures forall n :: n != shop[k].name ==> Lookup(RemoveAt(shop, k), n) == Lookup(shop, n)
    ensures UniqueNames(shop) ==> Lookup(RemoveAt(shop, k), shop[k].name).None? && UniqueNames(RemoveAt(shop, k))
  {
    var r := RemoveAt(shop, k);
    forall n | n != shop[k].name
      ensures Lookup(r, n) == Lookup(shop, n)
    {
      RemoveKeepsIndex(shop, k, n);
    }
    if UniqueNames(shop) {
      forall j | 0 <= j < |r|
        ensures r[j].name != shop[k].name
      {
        if j >= k {
          assert r[j] == shop[j + 1];
        }
      }
      assert IndexOf(r, shop[k].name).None?;
    }
  }

  /** Removing an item does not move the first occurrence of another name,
      beyond shifting it down by one when it came after. */
  lemma RemoveKeepsIndex(shop: seq<ShopItem>, k: nat, n: string)
    requires k < |shop| && shop[k].name != n
    ensures Lookup(RemoveAt(shop, k), n) == Lookup(shop, n)
  {
    var r := RemoveAt(shop, k);
    match IndexOf(shop, n)
    case None =>
      assert forall j :: 0 <= j < |r| ==> r[j].name != n by {
        forall j | 0 <= j < |r|
          ensures r[j].name != n
        {
          if j >= k {
            assert r[j] == shop[j + 1];
          }
        }
      }
      assert IndexOf(r, n).None?;
    case Some(i) =>
      var i' := if i < k then i else i - 1;
      assert r[i'] == shop[i];
      forall j | 0 <= j < i'
        ensures r[j].name != n
      {
        if j >= k {
          assert r[j] == shop[j + 1];
        }
      }
      assert IndexOf(r, n) == Some(i') by {
        var f := IndexOf(r, n);
        assert f.Some? by { assert r[i'].name == n; }
      }
  }

  // ---------------------------------------------------------------------
  // Display lines
  // ---------------------------------------------------------------------

  /** `"[" + str(i) + "] "`, the start of every listed line. */
  function Label(i: nat): (p: string)
    ensures |p| >= 4 && p[0] == '[' && p[|p| - 2] == ']' && p[|p| - 1] == ' '
    ensures forall k :: 1 <= k < |p| - 2 ==> IsDigit(p[k])
    ensures forall k :: 0 <= k < |p| ==> p[k] != 'x'
    ensures forall k :: 0 <= k < |p| - 2 ==> p[k] != ']'
  {
    "[" + NatToString(i) + "] "
  }

  /** `f"[{i}] {name}{sep}{count}"`: ` × ` on the command line, ` x ` in the
      graphical front end. */
  function ItemLine(i: nat, it: ShopItem, sep: string): string
  {
    Label(i) + it.name + sep + IntToString(it.count)
  }

  /** A line is the label, then the name, the separator and the count's
      digits, each at its place. */
  lemma ItemLineShape(i: nat, it: ShopItem, sep: string)
    ensures var line, p := ItemLine(i, it, sep), Label(i);
            && |line| > |p| + |it.name| + |sep|
            && p <= line && line[|p|..|p| + |it.name|] == it.name
            && line[|p| + |it.name|..|p| + |it.name| + |sep|] == sep
            && line[|p| + |it.name| + |sep|..] == IntToString(it.count)
  {
  }

  /** The indent `shop_list` prints before each line. */
  const Indent: string := "   "

  /** `shop_list`: "(No items)" for an empty list, otherwise every item in
      insertion order, numbered from 1, each line indented. */
  function CliLines(shop: seq<ShopItem>): (lines: seq<string>)
    ensures |shop| == 0 ==> lines == [Indent + "(No items)"]
    ensures |shop| > 0 ==> |lines| == |shop|
    ensures forall k :: 0 <= k < |shop| ==> lines[k] == Indent + ItemLine(k + 1, shop[k], " × ")
  {
    if |shop| == 0 then [Indent + "(No items)"]
    else seq(|shop|, k requires 0 <= k < |shop| => Indent + ItemLine(k + 1, shop[k], " × "))
  }

  /** A new item is listed last, under the next number; the lines before it
      do not change. */
  lemma AddNewListedLast(shop: seq<ShopItem>, name: string)
    requires Lookup(shop, name).None?
    ensures |CliLines(Add(shop, name))| == |shop| + 1
    ensures CliLines(Add(shop, name))[|shop|] == Indent + ItemLine(|shop| + 1, ShopItem(name, 1), " × ")
    ensures forall k :: 0 <= k < |shop| ==> CliLines(Add(shop, name))[k] == CliLines(shop)[k]
  {
  }

  function NameKey(it: ShopItem): string {
    it.name
  }

  /** `sorted(shop.items(), key=lambda x: x[0])`. */
  function SortedItems(shop: seq<ShopItem>): (s: seq<ShopItem>)
    ensures |s| == |shop| && multiset(s) == multiset(shop)
    ensures SortedBy(s, NameKey)
  {
    SortBySorted(shop, NameKey);
    SortByPermutes(shop, NameKey);
    SortBy(shop, NameKey)
  }

  const EmptyLine: string := "List is empty"

  /** `refresh_shopping_list`: the placeholder line for an empty list,
      otherwise one line per item in name order, numbered from 1. */
  function GuiLines(shop: seq<ShopItem>): (lines: seq<string>)
    ensures |lines| >= 1
    ensures |shop| == 0 ==> lines == [EmptyLine]
    ensures |shop| > 0 ==> (|lines| == |shop| &&
              forall k :: 0 <= k < |shop| ==> lines[k] == ItemLine(k + 1, SortedItems(shop)[k], " x "))
  {
    if |shop| == 0 then [EmptyLine]
    else
      var s := SortedItems(shop);
      seq(|s|, k requires 0 <= k < |s| => ItemLine(k + 1, s[k], " x "))
  }

  /** `line.split(" x ")[0].split("] ")[1]`; `None` where the second index
      raises `IndexError`. */
  function ParseName(line: string): (r: Option<string>)
    ensures r.None? <==> !Contains(Split(line, " x ")[0], "] ")
    ensures r.Some? ==> !Contains(r.value, "] ")
  {
    var head := Split(line, " x ")[0];
    var parts := Split(head, "] ");
    SplitOnce(head, "] ");
    if |parts| < 2 then None else Some(parts[1])
  }

  /** A name the display line gives back intact: ` x ` does not occur in it
      once it is padded with a space on each side (so it neither is `x` nor
      starts with `x `, ends with ` x` or contains ` x `), and `] ` does not
      occur in it. */
  predicate Clean(name: string) {
    !Contains(" " + name + " ", " x ") && !Contains(name, "] ")
  }

  /** Where ` x ` can occur before the separator in `p + n + " x " + c`,
      when `p` ends in a space and holds no `x`: exactly where it occurs in
      `n` padded with one space on each side. */
  lemma SeparatorOccurrences(p: string, n: string, c: string, j: nat)
    requires |p| >= 1 && p[|p| - 1] == ' '
    requires forall k :: 0 <= k < |p| ==> p[k] != 'x'
    requires j < |p| + |n|
    ensures OccursAt(p + n + " x " + c, " x ", j) <==> j + 1 >= |p| && OccursAt(" " + n + " ", " x ", j + 1 - |p|)
  {
    var line, q := p + n + " x " + c, " " + n + " ";
    OccursAt3(line, " x ", j);
    if j + 1 < |p| {
      assert line[j + 1] == p[j + 1];
    } else {
      var u := j + 1 - |p|;
      OccursAt3(q, " x ", u);
      PaddedChar(p, n, c, j);
      PaddedChar(p, n, c, j + 1);
      if u + 3 <= |q| {
        PaddedChar(p, n, c, j + 2);
      }
    }
  }

  /** `p + n + " x " + c` agrees with `" " + n + " "` from the last character of `p` on. */
  lemma PaddedChar(p: string, n: string, c: string, t: nat)
    requires |p| >= 1 && p[|p| - 1] == ' '
    requires |p| - 1 <= t <= |p| + |n|
    ensures (p + n + " x " + c)[t] == (" " + n + " ")[t + 1 - |p|]
  {
  }

  /** A three-character separator occurs where its three characters are. */
  lemma OccursAt3(s: string, sep: string, j: nat)
    requires |sep| == 3
    ensures OccursAt(s, sep, j) <==> j + 3 <= |s| && s[j] == sep[0] && s[j + 1] == sep[1] && s[j + 2] == sep[2]
  {
    if j + 3 <= |s| {
      OccursAtChars(s, sep, j);
    }
  }

  /** The first piece of `p + n + " x " + c` before ` x `, when `p` ends in
      a space and holds no `x`: `p` and the whole of `n` when the padded `n`
      is clean of ` x `, otherwise `p` without its last character or `p` and
      a proper prefix of `n`. */
  lemma LineHead(p: string, n: string, c: string)
    requires |p| >= 1 && p[|p| - 1] == ' '
    requires forall k :: 0 <= k < |p| ==> p[k] != 'x'
    ensures var head := Split(p + n + " x " + c, " x ")[0];
            && (!Contains(" " + n + " ", " x ") ==> head == p + n)
            && (Contains(" " + n + " ", " x ") ==>
                  head == p[..|p| - 1] || exists m :: 0 <= m < |n| && head == p + n[..m])
  {
    if !Contains(" " + n + " ", " x ") {
      CleanLineHead(p, n, c);
    } else {
      DirtyLineHead(p, n, c);
    }
  }

  lemma CleanLineHead(p: string, n: string, c: string)
    requires |p| >= 1 && p[|p| - 1] == ' '
    requires forall k :: 0 <= k < |p| ==> p[k] != 'x'
    requires !Contains(" " + n + " ", " x ")
    ensures Split(p + n + " x " + c, " x ")[0] == p + n
  {
    var line := p + n + " x " + c;
    var e := |p| + |n|;
    assert line[e..e + 3] == " x ";
    forall j | 0 <= j < e
      ensures !OccursAt(line, " x ", j)
    {
      SeparatorOccurrences(p, n, c, j);
    }
    SplitAt(line, " x ", e);
    assert line[..e] == p + n;
  }

  lemma DirtyLineHead(p: string, n: string, c: string)
    requires |p| >= 1 && p[|p| - 1] == ' '
    requires forall k :: 0 <= k < |p| ==> p[k] != 'x'
    requires Contains(" " + n + " ", " x ")
    ensures var head := Split(p + n + " x " + c, " x ")[0];
            head == p[..|p| - 1] || exists m :: 0 <= m < |n| && head == p + n[..m]
  {
    var k := DirtyHeadLength(p, n, c);
    if k + 1 == |p| {
      assert (p + n)[..k] == p[..|p| - 1];
    } else {
      var m := k - |p|;
      assert (p + n)[..k] == p + n[..m];
    }
  }

  /** The first piece of a line whose padded name holds ` x ` is a prefix
      of `p + n` ending between the last character of `p` and two before
      the end of the name. */
  lemma DirtyHeadLength(p: string, n: string, c: string) returns (k: nat)
    requires |p| >= 1 && p[|p| - 1] == ' '
    requires forall k :: 0 <= k < |p| ==> p[k] != 'x'
    requires Contains(" " + n + " ", " x ")
    ensures |p| - 1 <= k < |p| + |n| - 1
    ensures Split(p + n + " x " + c, " x ")[0] == (p + n)[..k]
  {
    var line := p + n + " x " + c;
    k := FirstSeparator(p, n, c);
    SplitHead(line, " x ");
    assert line[..k] == (p + n)[..k];
  }

  /** Where the first ` x ` is when the padded name holds one: from the last
      character of `p` to two before the end of the name. */
  lemma FirstSeparator(p: string, n: string, c: string) returns (k: nat)
    requires |p| >= 1 && p[|p| - 1] == ' '
    requires forall k :: 0 <= k < |p| ==> p[k] != 'x'
    requires Contains(" " + n + " ", " x ")
    ensures Find(p + n + " x " + c, " x ", 0) == Some(k)
    ensures |p| - 1 <= k < |p| + |n| - 1
  {
    var line, q := p + n + " x " + c, " " + n + " ";
    var u :| 0 <= u <= |q| - 3 && OccursAt(q, " x ", u);
    var j0 := u + |p| - 1;
    SeparatorOccurrences(p, n, c, j0);
    ContainsFind(line, " x ");
    k := Find(line, " x ", 0).value;
    SeparatorOccurrences(p, n, c, k);
  }

  /** Cutting at the first `] ` of a labelled text leaves the text after the label. */
  lemma LabelSplit(i: nat, rest: string)
    ensures Split(Label(i) + rest, "] ") == [Label(i)[..|Label(i)| - 2]] + Split(rest, "] ")
  {
    var p := Label(i);
    var s := p + rest;
    forall j | 0 <= j < |p| - 2
      ensures !OccursAt(s, "] ", j)
    {
      assert s[j] == p[j];
    }
    assert s[|p| - 2..|p|] == "] ";
    SplitAt(s, "] ", |p| - 2);
    assert s[..|p| - 2] == p[..|p| - 2];
    assert s[|p|..] == rest;
  }

  /** A label without its trailing space holds no `] `. */
  lemma ShortLabelSplit(i: nat)
    ensures |Split(Label(i)[..|Label(i)| - 1], "] ")| == 1
  {
    var p := Label(i);
    var s := p[..|p| - 1];
    assert !Contains(s, "] ") by {
      forall j | 0 <= j <= |s| - 2
        ensures !OccursAt(s, "] ", j)
      {
        assert s[j] == p[j];
      }
    }
    SplitWhole(s, "] ");
  }

  /** The graphical front end reads back the name of a listed item exactly
      when the name is clean. */
  lemma RenderedNameRoundTrip(i: nat, it: ShopItem)
    ensures ParseName(ItemLine(i, it, " x ")) == Some(it.name) <==> Clean(it.name)
  {
    var p, n := Label(i), it.name;
    var head := Split(ItemLine(i, it, " x "), " x ")[0];
    LineHead(p, n, IntToString(it.count));
    if !Contains(" " + n + " ", " x ") {
      LabelSplit(i, n);
      SplitHeadPrefix(n, "] ");
      if !Contains(n, "] ") {
        SplitWhole(n, "] ");
      }
    } else if head == p[..|p| - 1] {
      ShortLabelSplit(i);
    } else {
      var m :| 0 <= m < |n| && head == p + n[..m];
      LabelSplit(i, n[..m]);
      SplitHeadPrefix(n[..m], "] ");
    }
  }

  // ---------------------------------------------------------------------
  // Deleting the selected line
  // ---------------------------------------------------------------------

  /** `delete_shopping_item` as written.  `sel` is the selected line, if
      any; a position past the lines reads as the empty line, as Tk's
      `Listbox.get` gives it.  The first line containing "List is empty"
      blocks every deletion; a line that does not parse raises `IndexError`,
      a parsed name that is not in the list `KeyError`. */
  function GuiDeleteItem(shop: seq<ShopItem>, sel: Option<nat>): (r: Result<seq<ShopItem>>)
    ensures sel.None? ==> r == Ok(shop)
    ensures |shop| == 0 ==> r == Ok(shop)
    ensures r.Ok? ==> (r.value == shop ||
              exists k :: 0 <= k < |shop| && r.value == RemoveAt(shop, k))
  {
    if sel.None? then Ok(shop)
    else
      var lines := GuiLines(shop);
      assert |shop| == 0 ==> OccursAt(lines[0], EmptyLine, 0);
      if Contains(lines[0], EmptyLine) then Ok(shop)
      else
        var line := if sel.value < |lines| then lines[sel.value] else "";
        match ParseName(line)
        case None => Err(IndexError)
        case Some(name) => Remove(shop, name)
  }

  /** Deleting the item shown at the selected position, by the item itself
      rather than by its line text. */
  function DeleteDisplayed(shop: seq<ShopItem>, sel: Option<nat>): (r: Result<seq<ShopItem>>)
    ensures sel.None? || |shop| == 0 ==> r == Ok(shop)
    ensures sel.Some? && 0 < |shop| <= sel.value ==> r == Err(IndexError)
    ensures sel.Some? && sel.value < |shop| && UniqueNames(shop) ==>
              && r.Ok?
              && multiset(r.value) + multiset{SortedItems(shop)[sel.value]} == multiset(shop)
              && Lookup(r.value, SortedItems(shop)[sel.value].name).None?
              && (forall n :: n != SortedItems(shop)[sel.value].name ==> Lookup(r.value, n) == Lookup(shop, n))
              && exists k :: 0 <= k < |shop| && shop[k] == SortedItems(shop)[sel.value] && r.value == RemoveAt(shop, k)
  {
    if sel.None? || |shop| == 0 then Ok(shop)
    else if sel.value >= |shop| then Err(IndexError)
    else
      var it := SortedItems(shop)[sel.value];
      DisplayedRemoval(shop, it);
      Remove(shop, it.name)
  }

  /** With distinct names, removing a listed item by its name removes that very item. */
  lemma DisplayedRemoval(shop: seq<ShopItem>, it: ShopItem)
    requires it in multiset(shop)
    ensures Remove(shop, it.name).Ok?
    ensures UniqueNames(shop) ==> multiset(Remove(shop, it.name).value) + multiset{it} == multiset(shop)
    ensures UniqueNames(shop) ==> exists k :: 0 <= k < |shop| && shop[k] == it && Remove(shop, it.name).value == RemoveAt(shop, k)
  {
    var j :| 0 <= j < |shop| && shop[j] == it;
    var r := Remove(shop, it.name);
    if UniqueNames(shop) {
      var k :| 0 <= k < |shop| && shop[k].name == it.name && r.value == RemoveAt(shop, k);
      assert k == j;
    }
  }

  /** With distinct clean names and no item line containing the placeholder
      text, the line parse deletes exactly the item shown. */
  lemma GuiDeleteIsDeleteDisplayed(shop: seq<ShopItem>, idx: nat)
    requires UniqueNames(shop)
    requires forall k :: 0 <= k < |shop| ==> Clean(shop[k].name)
    requires !Contains(GuiLines(shop)[0], EmptyLine)
    ensures GuiDeleteItem(shop, Some(idx)) == DeleteDisplayed(shop, Some(idx))
  {
    if idx < |shop| {
      GuiDeleteListed(shop, idx);
      DisplayedIsRemove(shop, idx);
    } else {
      GuiDeletePastEnd(shop, idx);
    }
  }

  /** A listed line of a clean name parses back to its item's name, which
      the window then removes. */
  lemma GuiDeleteListed(shop: seq<ShopItem>, idx: nat)
    requires idx < |shop|
    requires forall k :: 0 <= k < |shop| ==> Clean(shop[k].name)
    requires !Contains(GuiLines(shop)[0], EmptyLine)
    ensures GuiDeleteItem(shop, Some(idx)) == Remove(shop, SortedItems(shop)[idx].name)
  {
    ListedNameParses(shop, idx);
    GuiDeleteParsed(shop, idx, SortedItems(shop)[idx].name);
  }

  /** The line listed for a clean name parses back to that name. */
  lemma ListedNameParses(shop: seq<ShopItem>, idx: nat)
    requires idx < |shop|
    requires forall k :: 0 <= k < |shop| ==> Clean(shop[k].name)
    ensures idx < |GuiLines(shop)| && ParseName(GuiLines(shop)[idx]) == Some(SortedItems(shop)[idx].name)
  {
    var it := SortedItems(shop)[idx];
    assert it in multiset(shop);
    assert GuiLines(shop)[idx] == ItemLine(idx + 1, it, " x ");
    RenderedNameRoundTrip(idx + 1, it);
  }

  /** A selection past the lines reads the empty line, which does not parse. */
  lemma GuiDeletePastEnd(shop: seq<ShopItem>, idx: nat)
    requires |shop| <= idx
    requires !Contains(GuiLines(shop)[0], EmptyLine)
    ensures GuiDeleteItem(shop, Some(idx)) == Err(IndexError)
  {
    assert Split("", " x ") == [""];
    assert Split("", "] ") == [""];
  }

  /** With "Box" and "Box x" on the list, selecting the line of "Box x"
      deletes "Box": the line `[2] Box x x 1` is cut at its first ` x `. */
  lemma BoxXDeletesBox()
    ensures var shop := [ShopItem("Box", 1), ShopItem("Box x", 1)];
            && SortedItems(shop)[1].name == "Box x"
            && GuiDeleteItem(shop, Some(1)) == Ok([ShopItem("Box x", 1)])
            && DeleteDisplayed(shop, Some(1)) == Ok([ShopItem("Box", 1)])
  {
    var box, boxx := ShopItem("Box", 1), ShopItem("Box x", 1);
    BoxSortsFirst(box, boxx);
    BoxGuiDelete(box, boxx);
    BoxDisplayedDelete(box, boxx);
  }

  /** The window cuts the second line of the "Box" example down to "Box". */
  lemma BoxGuiDelete(box: ShopItem, boxx: ShopItem)
    requires box == ShopItem("Box", 1) && boxx == ShopItem("Box x", 1)
    requires SortedItems([box, boxx]) == [box, boxx]
    ensures GuiDeleteItem([box, boxx], Some(1)) == Ok([boxx])
  {
    var shop := [box, boxx];
    BoxLines(box, boxx);
    BoxXLineParse();
    GuiDeleteParsed(shop, 1, "Box");
    RemoveFound(shop, "Box", 0);
    RemoveFromPair(box, boxx);
  }

  /** Deleting the displayed item of the "Box" example removes "Box x". */
  lemma BoxDisplayedDelete(box: ShopItem, boxx: ShopItem)
    requires box == ShopItem("Box", 1) && boxx == ShopItem("Box x", 1)
    requires SortedItems([box, boxx]) == [box, boxx]
    ensures DeleteDisplayed([box, boxx], Some(1)) == Ok([box])
  {
    var shop := [box, boxx];
    DeleteDisplayedFound(shop, 1, 1);
    RemoveFromPair(box, boxx);
  }

  /** Deleting the displayed item at `i` pops the first stored position
      holding its name. */
  lemma DeleteDisplayedFound(shop: seq<ShopItem>, i: nat, k: nat)
    requires i < |shop| && k < |shop| && shop[k].name == SortedItems(shop)[i].name
    requires forall j :: 0 <= j < k ==> shop[j].name != shop[k].name
    ensures DeleteDisplayed(shop, Some(i)) == Ok(RemoveAt(shop, k))
  {
    RemoveFound(shop, shop[k].name, k);
  }

  /** The window's delete of a line that parses, with no placeholder text on
      the first line, is `del shop[name]` of the parsed name. */
  lemma GuiDeleteParsed(shop: seq<ShopItem>, idx: nat, name: string)
    requires idx < |GuiLines(shop)|
    requires !Contains(GuiLines(shop)[0], EmptyLine)
    requires ParseName(GuiLines(shop)[idx]) == Some(name)
    ensures GuiDeleteItem(shop, Some(idx)) == Remove(shop, name)
  {
  }

  /** Deleting the item shown at a listed position removes it by its name. */
  lemma DisplayedIsRemove(shop: seq<ShopItem>, idx: nat)
    requires idx < |shop|
    ensures DeleteDisplayed(shop, Some(idx)) == Remove(shop, SortedItems(shop)[idx].name)
  {
  }

  /** `del shop[name]` pops the first position holding the name. */
  lemma RemoveFound(shop: seq<ShopItem>, name: string, k: nat)
    requires k < |shop| && shop[k].name == name
    requires forall j :: 0 <= j < k ==> shop[j].name != name
    ensures Remove(shop, name) == Ok(RemoveAt(shop, k))
  {
    assert IndexOf(shop, name) == Some(k);
  }

  /** The two lines of the "Box" example; the first has no room for the
      placeholder text. */
  lemma BoxLines(box: ShopItem, boxx: ShopItem)
    requires box == ShopItem("Box", 1) && boxx == ShopItem("Box x", 1)
    requires SortedItems([box, boxx]) == [box, boxx]
    ensures |GuiLines([box, boxx])| == 2
    ensures GuiLines([box, boxx])[1] == ItemLine(2, boxx, " x ")
    ensures !Contains(GuiLines([box, boxx])[0], EmptyLine)
  {
    var lines := GuiLines([box, boxx]);
    SmallNumerals();
    assert lines[0] == ItemLine(1, box, " x ");
    assert |Label(1)| == 4;
    assert |lines[0]| == 11;
  }

  /** `str(1)` and `str(2)`. */
  lemma SmallNumerals()
    ensures NatToString(1) == "1" && NatToString(2) == "2" && IntToString(1) == "1"
  {
  }

  lemma BoxSortsFirst(box: ShopItem, boxx: ShopItem)
    requires box.name == "Box" && boxx.name == "Box x"
    ensures SortedItems([box, boxx]) == [box, boxx]
  {
    assert LessEq("Box", "Box x") by {
      assert "Box"[1..][1..][1..] == [];
      assert "Box x"[1..][1..] == "x x";
    }
    assert SortBy([box, boxx][1..], NameKey) == [boxx];
  }

  /** `"[2] Box x x 1".split(" x ")[0].split("] ")[1]` is `"Box"`. */
  lemma BoxXLineParse()
    ensures ParseName(ItemLine(2, ShopItem("Box x", 1), " x ")) == Some("Box")
  {
    BoxXHead(Label(2), IntToString(1));
    BoxAfterLabel(2);
  }

  /** Cutting a labelled "Box" at `] ` leaves "Box" second. */
  lemma BoxAfterLabel(i: nat)
    ensures |Split(Label(i) + "Box", "] ")| >= 2
    ensures Split(Label(i) + "Box", "] ")[1] == "Box"
  {
    LabelSplit(i, "Box");
    assert !Contains("Box", "] ") by {
      assert !OccursAt("Box", "] ", 0) && !OccursAt("Box", "] ", 1);
    }
    SplitWhole("Box", "] ");
  }

  /** After a label, the name "Box x" is cut at its own ` x `. */
  lemma BoxXHead(p: string, c: string)
    requires |p| >= 1 && p[|p| - 1] == ' '
    requires forall k :: 0 <= k < |p| ==> p[k] != 'x'
    ensures Split(p + "Box x" + " x " + c, " x ")[0] == p + "Box"
  {
    var line := p + "Box x" + " x " + c;
    var e := |p| + 3;
    assert line[e..e + 3] == " x ";
    forall j | 0 <= j < e
      ensures !OccursAt(line, " x ", j)
    {
      BoxXNoEarlySeparator(p, c, j);
    }
    SplitAt(line, " x ", e);
    assert line[..e] == p + "Box";
  }

  /** Before the ` x ` inside "Box x", a labelled "Box x" line has no ` x `. */
  lemma BoxXNoEarlySeparator(p: string, c: string, j: nat)
    requires |p| >= 1 && p[|p| - 1] == ' '
    requires forall k :: 0 <= k < |p| ==> p[k] != 'x'
    requires j < |p| + 3
    ensures !OccursAt(p + "Box x" + " x " + c, " x ", j)
  {
    SeparatorOccurrences(p, "Box x", c, j);
    if j + 1 >= |p| {
      OccursAt3(" Box x ", " x ", j + 1 - |p|);
    }
  }

  /** An item whose line contains "List is empty" and sorts first makes
      every deletion a silent no-op. */
  lemma PlaceholderTextBlocksDelete()
    ensures var shop := [ShopItem("List is empty", 1)];
            && GuiDeleteItem(shop, Some(0)) == Ok(shop)
            && DeleteDisplayed(shop, Some(0)) == Ok([])
  {
    var shop := [ShopItem("List is empty", 1)];
    assert SortedItems(shop) == shop;
    var line := GuiLines(shop)[0];
    SmallNumerals();
    assert line == "[1] " + EmptyLine + " x " + "1";
    assert line[4..4 + |EmptyLine|] == EmptyLine;
    assert OccursAt(line, EmptyLine, 4);
    assert IndexOf(shop, EmptyLine) == Some(0);
  }
}

=== FILE: store.dfy ===
/** The dormitory document and its backing file.

    The Python program keeps one JSON object with the keys `config`
    (holding `last_opened`), `roster`, `ddls` and `shopping`.  Here it is a
    value; the shopping dictionary is a sequence of items with distinct names
    in insertion order, which is the order Python dictionaries keep.
 */
module Store {

  datatype Deadline = Deadline(id: int, date: string, title: string)

  datatype ShopItem = ShopItem(name: string, count: int)

  datatype Config = Config(lastOpened: string)

  datatype Document = Document(
    config: Config,
    roster: seq<string>,
    ddls: seq<Deadline>,
    shopping: seq<ShopItem>)

  const DataFile: string := "dorm_data.json"

  const DefaultRoster: seq<string> := ["Zhang San", "Li Si", "Wang Wu", "Zhao Liu"]

  /** The document written on first run. */
  const Default: Document := Document(Config(""), DefaultRoster, [], [])

  /** A dictionary never holds a key twice. */
  predicate UniqueNames(shop: seq<ShopItem>) {
    forall i, j :: 0 <= i < j < |shop| ==> shop[i].name != shop[j].name
  }

  predicate WellFormed(doc: Document) {
    UniqueNames(doc.shopping)
  }

  /** What the backing file holds when the program reads it. */
  datatype FileState = Missing | Corrupt | Parsed(doc: Document)

  /** `load_data`: the parsed document, or the default one when the file is
      missing or is not valid JSON -- never a mixture of the two. */
  function Load(f: FileState): (d: Document)
    ensures f.Parsed? ==> d == f.doc
    ensures !f.Parsed? ==> d == Default
  {
    match f
    case Parsed(doc) => doc
    case _ => Default
  }

  /** `save_data`: the whole document overwrites the file. */
  function Save(doc: Document): (f: FileState)
    ensures Load(f) == doc
  {
    Parsed(doc)
  }
}

=== FILE: strings.dfy ===
/** The slice of Python's `str` behaviour the dormitory helper relies on:
    substring tests (`q in s`), `str.split(sep)`, `sep.join(parts)`,
    `str.strip()`, string comparison, integer rendering (f-strings) and
    `int(s)` in base 10.

    Python compares strings code point by code point, which is what Dafny's
    `<` on `char` does when characters are Unicode scalar values.
 */
module Strings {
  import opened Results

  // ---------------------------------------------------------------------
  // Substrings
  // ---------------------------------------------------------------------

  /** `sep` occurs in `s` starting at index `j`. */
  predicate OccursAt(s: string, sep: string, j: int) {
    0 <= j && j + |sep| <= |s| && s[j..j + |sep|] == sep
  }

  /** Python's `q in s` for strings. */
  predicate Contains(s: string, q: string)
    ensures |q| == 0 ==> Contains(s, q)
    ensures Contains(s, q) ==> |q| <= |s|
  {
    assert |q| == 0 ==> OccursAt(s, q, 0);
    exists j | 0 <= j <= |s| - |q| :: OccursAt(s, q, j)
  }

  /** The first occurrence of `sep` in `s` at or after `from`, as `str.find` computes it. */
  function Find(s: string, sep: string, from: nat): (r: Option<nat>)
    ensures r.Some? ==> from <= r.value && OccursAt(s, sep, r.value)
    ensures forall j :: from <= j && (r.None? || j < r.value) ==> !OccursAt(s, sep, j)
    decreases |s| - from
  {
    if from + |sep| > |s| then None
    else if s[from..from + |sep|] == sep then Some(from)
    else Find(s, sep, from + 1)
  }

  lemma FindFirst(s: string, sep: string, i: nat)
    requires OccursAt(s, sep, i)
    requires forall j :: 0 <= j < i ==> !OccursAt(s, sep, j)
    ensures Find(s, sep, 0) == Some(i)
  {
  }

  lemma FindNone(s: string, sep: string)
    requires forall j :: 0 <= j ==> !OccursAt(s, sep, j)
    ensures Find(s, sep, 0) == None
  {
  }

  lemma ContainsFind(s: string, sep: string)
    ensures Contains(s, sep) <==> Find(s, sep, 0).Some?
  {
    if Find(s, sep, 0).Some? {
      assert OccursAt(s, sep, Find(s, sep, 0).value);
    }
  }

  /** Python's `sep.join(parts)`. */
  function Join(parts: seq<string>, sep: string): string
  {
    if |parts| == 0 then ""
    else if |parts| == 1 then parts[0]
    else parts[0] + sep + Join(parts[1..], sep)
  }

  /** The join is as long as the parts and the separators between them; it
      starts with the first part and ends with the last. */
  lemma {:induction false} JoinShape(parts: seq<string>, sep: string)
    requires |parts| > 0
    ensures var r := Join(parts, sep);
            && |r| == TotalLength(parts) + (|parts| - 1) * |sep|
            && parts[0] <= r
            && |parts[|parts| - 1]| <= |r|
            && r[|r| - |parts[|parts| - 1]|..] == parts[|parts| - 1]
  {
    JoinLength(parts, sep);
    JoinLast(parts, sep);
    if |parts| > 1 {
      assert Join(parts, sep) == parts[0] + (sep + Join(parts[1..], sep));
    }
  }

  lemma {:induction false} JoinLength(parts: seq<string>, sep: string)
    requires |parts| > 0
    ensures |Join(parts, sep)| == TotalLength(parts) + (|parts| - 1) * |sep|
    decreases |parts|
  {
    if |parts| > 1 {
      JoinLength(parts[1..], sep);
    }
  }

  lemma {:induction false} JoinLast(parts: seq<string>, sep: string)
    requires |parts| > 0
    ensures var r, last := Join(parts, sep), parts[|parts| - 1];
            |last| <= |r| && r[|r| - |last|..] == last
    decreases |parts|
  {
    if |parts| > 1 {
      var last, rest := parts[|parts| - 1], Join(parts[1..], sep);
      JoinLast(parts[1..], sep);
      assert parts[1..][|parts[1..]| - 1] == last;
      var r := parts[0] + sep + rest;
      assert Join(parts, sep) == r;
      assert r[|r| - |last|..] == rest[|rest| - |last|..];
    }
  }

  /** The summed lengths of the strings in `parts`. */
  function TotalLength(parts: seq<string>): nat {
    if |parts| == 0 then 0 else |parts[0]| + TotalLength(parts[1..])
  }

  /** Python's `s.split(sep)` for a non-empty separator: the pieces between
      the leftmost non-overlapping occurrences of `sep`; joining them back
      with `sep` gives `s`. */
  function Split(s: string, sep: string): (parts: seq<string>)
    requires |sep| > 0
    ensures |parts| >= 1
    ensures Join(parts, sep) == s
    ensures forall k :: 0 <= k < |parts| ==> !Contains(parts[k], sep)
    ensures Find(s, sep, 0).Some? ==> parts[0] == s[..Find(s, sep, 0).value]
    decreases |s|
  {
    match Find(s, sep, 0)
    case None =>
      ContainsFind(s, sep);
      [s]
    case Some(i) =>
      var rest := Split(s[i + |sep|..], sep);
      NoneBeforeFirst(s, sep, i);
      assert ([s[..i]] + rest)[1..] == rest;
      assert s[..i] + sep + s[i + |sep|..] == s;
      [s[..i]] + rest
  }

  /** The text before the first occurrence of `sep` does not contain it. */
  lemma NoneBeforeFirst(s: string, sep: string, i: nat)
    requires |sep| > 0 && Find(s, sep, 0) == Some(i)
    ensures !Contains(s[..i], sep)
  {
    forall j | 0 <= j <= i - |sep|
      ensures !OccursAt(s[..i], sep, j)
    {
      if OccursAt(s[..i], sep, j) {
        assert s[..i][j..j + |sep|] == s[j..j + |sep|];
        assert OccursAt(s, sep, j);
      }
    }
  }

  /** The first piece of `s.split(sep)` is `s` itself exactly when `sep` does not occur in it. */
  lemma SplitHead(s: string, sep: string)
    requires |sep| > 0
    ensures Find(s, sep, 0).None? ==> Split(s, sep) == [s]
    ensures Find(s, sep, 0).Some? ==> Split(s, sep)[0] == s[..Find(s, sep, 0).value]
  {
  }

  lemma {:induction false} SplitJoin(parts: seq<string>, c: char)
    requires |parts| >= 1
    requires forall k :: 0 <= k < |parts| ==> c !in parts[k]
    ensures Split(Join(parts, [c]), [c]) == parts
    decreases |parts|
  {
    var s := Join(parts, [c]);
    var p0 := parts[0];
    if |parts| == 1 {
      forall j | 0 <= j
        ensures !OccursAt(s, [c], j)
      {
        if j < |s| {
          assert s[j..j + 1][0] == s[j];
        }
      }
      FindNone(s, [c]);
    } else {
      assert s == p0 + [c] + Join(parts[1..], [c]);
      forall j | 0 <= j < |p0|
        ensures !OccursAt(s, [c], j)
      {
        assert s[j..j + 1][0] == s[j] == p0[j];
      }
      assert s[|p0|..|p0| + 1] == [c];
      FindFirst(s, [c], |p0|);
      assert s[..|p0|] == p0;
      assert s[|p0| + 1..] == Join(parts[1..], [c]);
      SplitJoin(parts[1..], c);
      assert parts == [p0] + parts[1..];
    }
  }

  /** `sep` occurs at `j` exactly when the characters there spell it. */
  lemma OccursAtChars(s: string, sep: string, j: int)
    requires 0 <= j && j + |sep| <= |s|
    ensures OccursAt(s, sep, j) <==> forall k :: 0 <= k < |sep| ==> s[j + k] == sep[k]
  {
    if forall k :: 0 <= k < |sep| ==> s[j + k] == sep[k] {
      assert s[j..j + |sep|] == sep;
    }
  }

  /** Splitting at the leftmost occurrence `k` of `sep`. */
  lemma SplitAt(s: string, sep: string, k: nat)
    requires |sep| > 0
    requires OccursAt(s, sep, k)
    requires forall j :: 0 <= j < k ==> !OccursAt(s, sep, j)
    ensures Split(s, sep) == [s[..k]] + Split(s[k + |sep|..], sep)
  {
    FindFirst(s, sep, k);
  }

  /** A string without `sep` splits into itself alone. */
  /** A string splits into one piece exactly when it lacks the separator. */
  lemma SplitOnce(s: string, sep: string)
    requires |sep| > 0
    ensures |Split(s, sep)| == 1 <==> !Contains(s, sep)
  {
    if !Contains(s, sep) {
      SplitWhole(s, sep);
    }
  }

  lemma SplitWhole(s: string, sep: string)
    requires |sep| > 0
    requires !Contains(s, sep)
    ensures Split(s, sep) == [s]
  {
    ContainsFind(s, sep);
  }

  /** The first piece is a prefix of `s`, and a proper one when `sep` occurs in `s`. */
  lemma SplitHeadPrefix(s: string, sep: string)
    requires |sep| > 0
    ensures Split(s, sep)[0] <= s
    ensures Contains(s, sep) ==> |Split(s, sep)[0]| + |sep| <= |s|
  {
    ContainsFind(s, sep);
    SplitHead(s, sep);
  }

  // ---------------------------------------------------------------------
  // Whitespace and str.strip()
  // ---------------------------------------------------------------------

  /** Python's `str.isspace()` for one character: the characters `str.strip()` removes. */
  predicate IsSpace(c: char) {
    var n := c as int;
    || (9 <= n <= 13) || (28 <= n <= 32) || n == 0x85 || n == 0xA0 || n == 0x1680
    || (0x2000 <= n <= 0x200A) || n == 0x2028 || n == 0x2029 || n == 0x202F
    || n == 0x205F || n == 0x3000
  }

  predicate AllSpace(s: string) {
    forall k :: 0 <= k < |s| ==> IsSpace(s[k])
  }

  /** The first index at or after `i` that does not hold whitespace (or `|s|`). */
  function TrimStart(s: string, i: nat): (a: nat)
    requires i <= |s|
    ensures i <= a <= |s|
    ensures forall k :: i <= k < a ==> IsSpace(s[k])
    ensures a < |s| ==> !IsSpace(s[a])
    decreases |s| - i
  {
    if i == |s| || !IsSpace(s[i]) then i else TrimStart(s, i + 1)
  }

  /** The end of `s[lo..hi]` once trailing whitespace is dropped. */
  function TrimEnd(s: string, lo: nat, hi: nat): (b: nat)
    requires lo <= hi <= |s|
    ensures lo <= b <= hi
    ensures forall k :: b <= k < hi ==> IsSpace(s[k])
    ensures lo < b ==> !IsSpace(s[b - 1])
    decreases hi
  {
    if hi == lo || !IsSpace(s[hi - 1]) then hi else TrimEnd(s, lo, hi - 1)
  }

  /** Python's `s.strip()`: `s` with its leading and trailing whitespace removed. */
  function Strip(s: string): (r: string)
    ensures exists i :: && OccursAt(s, r, i)
                        && (forall k :: 0 <= k < i ==> IsSpace(s[k]))
                        && (forall k :: i + |r| <= k < |s| ==> IsSpace(s[k]))
    ensures |r| > 0 ==> !IsSpace(r[0]) && !IsSpace(r[|r| - 1])
    ensures |r| == 0 <==> AllSpace(s)
    ensures |s| > 0 && !IsSpace(s[0]) && !IsSpace(s[|s| - 1]) ==> r == s
  {
    var a := TrimStart(s, 0);
    var b := TrimEnd(s, a, |s|);
    assert OccursAt(s, s[a..b], a);
    s[a..b]
  }

  /** Stripping a text that starts and ends with non-whitespace, followed by
      whitespace only, gives the text back. */
  lemma StripTrailing(s: string, t: string)
    requires |s| > 0 && !IsSpace(s[0]) && !IsSpace(s[|s| - 1])
    requires AllSpace(t)
    ensures Strip(s + t) == s
  {
    var u := s + t;
    var r := Strip(u);
    var i :| && OccursAt(u, r, i)
             && (forall k :: 0 <= k < i ==> IsSpace(u[k]))
             && (forall k :: i + |r| <= k < |u| ==> IsSpace(u[k]));
    assert u[0] == s[0] && u[|s| - 1] == s[|s| - 1];
    assert !AllSpace(u);
    assert i == 0;
    assert u[i + |r| - 1] == r[|r| - 1];
    assert i + |r| == |s|;
    assert u[..|s|] == s;
  }

  // ---------------------------------------------------------------------
  // String comparison
  // ---------------------------------------------------------------------

  /** Python's `a <= b` on strings: lexicographic by code point, a prefix first. */
  predicate LessEq(a: string, b: string)
    decreases |a|
  {
    |a| == 0 || (|b| > 0 && (a[0] < b[0] || (a[0] == b[0] && LessEq(a[1..], b[1..]))))
  }

  lemma {:induction false} LessEqReflexive(a: string)
    ensures LessEq(a, a)
    decreases |a|
  {
    if |a| > 0 {
      LessEqReflexive(a[1..]);
    }
  }

  lemma {:induction false} LessEqTotal(a: string, b: string)
    ensures LessEq(a, b) || LessEq(b, a)
    decreases |a|
  {
    if |a| > 0 && |b| > 0 && a[0] == b[0] {
      LessEqTotal(a[1..], b[1..]);
    }
  }

  lemma {:induction false} LessEqTransitive(a: string, b: string, c: string)
    requires LessEq(a, b) && LessEq(b, c)
    ensures LessEq(a, c)
    decreases |a|
  {
    if |a| > 0 && a[0] == b[0] && b[0] == c[0] {
      LessEqTransitive(a[1..], b[1..], c[1..]);
    }
  }

  lemma {:induction false} LessEqAntisymmetric(a: string, b: string)
    requires LessEq(a, b) && LessEq(b, a)
    ensures a == b
    decreases |a|
  {
    if |a| > 0 {
      LessEqAntisymmetric(a[1..], b[1..]);
      assert a == [a[0]] + a[1..];
      assert b == [b[0]] + b[1..];
    }
  }

  /** Strings that agree up to `k` and differ there are ordered by their
      characters at `k`. */
  lemma {:induction false} FirstDifference(a: string, b: string, k: nat)
    requires k < |a| && k < |b| && a[..k] == b[..k] && a[k] > b[k]
    ensures !LessEq(a, b)
    decreases k
  {
    if k > 0 {
      assert a[0] == a[..k][0] == b[..k][0] == b[0];
      assert a[1..][..k - 1] == a[1..k] == b[1..k] == b[1..][..k - 1];
      FirstDifference(a[1..], b[1..], k - 1);
    }
  }

  // ---------------------------------------------------------------------
  // Decimal integers: f-string rendering and int()
  // ---------------------------------------------------------------------

  predicate IsDigit(c: char) {
    '0' <= c <= '9'
  }

  predicate AllDigits(s: string) {
    forall k :: 0 <= k < |s| ==> IsDigit(s[k])
  }

  function DigitValue(c: char): nat
    requires IsDigit(c)
  {
    c as int - '0' as int
  }

  function DigitChar(d: nat): (c: char)
    requires d < 10
    ensures IsDigit(c) && DigitValue(c) == d
  {
    ('0' as int + d) as char
  }

  /** The value of a string of decimal digits, most significant first. */
  function DigitsValue(s: string): nat
    requires AllDigits(s)
    decreases |s|
  {
    if |s| == 0 then 0 else 10 * DigitsValue(s[..|s| - 1]) + DigitValue(s[|s| - 1])
  }

  /** `str(n)` for a natural number: decimal digits without leading zeros,
      which read back as `n`. */
  function NatToString(n: nat): (r: string)
    ensures |r| >= 1 && AllDigits(r)
    ensures DigitsValue(r) == n
    ensures |r| > 1 ==> r[0] != '0'
    decreases n
  {
    if n < 10 then [DigitChar(n)]
    else
      var r := NatToString(n / 10) + [DigitChar(n % 10)];
      assert r[..|r| - 1] == NatToString(n / 10);
      r
  }

  /** `str(i)` for an integer, a leading `-` for negative values. */
  function IntToString(i: int): (r: string)
    ensures |r| >= 1
    ensures r[0] == '-' <==> i < 0
    ensures forall k :: 0 < k < |r| ==> IsDigit(r[k])
  {
    if i < 0 then "-" + NatToString(-i) else NatToString(i)
  }

  /** The body `int()` accepts after the sign: digits, single underscores between digits. */
  predicate IsDigitGroups(s: string) {
    && |s| > 0 && IsDigit(s[0]) && IsDigit(s[|s| - 1])
    && (forall k :: 0 <= k < |s| ==> IsDigit(s[k]) || s[k] == '_')
    && (forall k :: 0 <= k < |s| - 1 && s[k] == '_' ==> IsDigit(s[k + 1]))
  }

  /** The value of the digits of `s`, the underscores skipped. */
  function GroupsValue(s: string): nat
    decreases |s|
  {
    if |s| == 0 then 0
    else if !IsDigit(s[|s| - 1]) then GroupsValue(s[..|s| - 1])
    else 10 * GroupsValue(s[..|s| - 1]) + DigitValue(s[|s| - 1])
  }

  /** CPython's default limit on the digits of a decimal integer string
      (`sys.int_info.default_max_str_digits`, from Python 3.11, 3.10.7 and
      3.9.14 on): leading zeros count, the sign and underscores do not. */
  const MaxDigits: nat := 4300

  /** The number of decimal digits in `s`. */
  function DigitCount(s: string): nat
    decreases |s|
  {
    if |s| == 0 then 0 else (if IsDigit(s[0]) then 1 else 0) + DigitCount(s[1..])
  }

  lemma {:induction false} DigitCountOfDigits(s: string)
    ensures AllDigits(s) ==> DigitCount(s) == |s|
    decreases |s|
  {
    if |s| > 0 && AllDigits(s) {
      assert AllDigits(s[1..]);
      DigitCountOfDigits(s[1..]);
    }
  }

  /** What follows the optional leading `+` or `-` of `t`. */
  function Unsigned(t: string): (b: string)
    ensures |t| > 0 && (t[0] == '+' || t[0] == '-') ==> b == t[1..]
    ensures |t| == 0 || (t[0] != '+' && t[0] != '-') ==> b == t
  {
    if |t| > 0 && (t[0] == '+' || t[0] == '-') then t[1..] else t
  }

  /** Python's `int(s)` in base 10, for ASCII digits: surrounding whitespace,
      an optional sign, digits grouped by single underscores, at most
      `MaxDigits` digits; `None` where Python raises `ValueError`. */
  function ParseInt(s: string): (r: Option<int>)
    ensures r.Some? <==> IsDigitGroups(Unsigned(Strip(s))) && DigitCount(Unsigned(Strip(s))) <= MaxDigits
    ensures AllSpace(s) ==> r.None?
    ensures r.Some? ==> DigitCount(Strip(s)) <= MaxDigits
    ensures var t := Strip(s); 0 < |t| <= MaxDigits && AllDigits(t) ==> r == Some(DigitsValue(t))
    ensures var t := Strip(s); 1 < |t| <= MaxDigits + 1 && t[0] == '-' && AllDigits(t[1..]) ==> r == Some(-(DigitsValue(t[1..]) as int))
    ensures r.Some? && r.value < 0 ==> Strip(s)[0] == '-'
  {
    var t := Strip(s);
    var signed := |t| > 0 && (t[0] == '+' || t[0] == '-');
    var body := Unsigned(t);
    GroupsValueOfDigits(body);
    DigitCountOfDigits(body);
    assert signed ==> DigitCount(t) == DigitCount(body);
    if !IsDigitGroups(body) || DigitCount(body) > MaxDigits then None
    else
      var v: int := GroupsValue(body);
      Some(if signed && t[0] == '-' then -v else v)
  }

  lemma {:induction false} GroupsValueOfDigits(s: string)
    ensures AllDigits(s) ==> GroupsValue(s) == DigitsValue(s)
    decreases |s|
  {
    if |s| > 0 && AllDigits(s) {
      GroupsValueOfDigits(s[..|s| - 1]);
    }
  }

  /** A stripped text holding a character that is neither a digit, `_`,
      `+` nor `-` is not an integer. */
  lemma ForeignCharacterRefused(s: string, k: nat)
    requires k < |Strip(s)|
    requires var c := Strip(s)[k]; !IsDigit(c) && c != '_' && c != '+' && c != '-'
    ensures ParseInt(s).None?
  {
    var t := Strip(s);
    var body := Unsigned(t);
    var j := if t[0] == '+' || t[0] == '-' then k - 1 else k;
    assert j < |body| && body[j] == t[k];
  }

  /** Rendering an integer and reading it back with `int()` gives the integer. */
  lemma ParseIntRoundTrip(i: int)
    requires |NatToString(if i < 0 then -i else i)| <= MaxDigits
    ensures ParseInt(IntToString(i)) == Some(i)
  {
    var s := IntToString(i);
    assert !IsSpace(s[0]) && !IsSpace(s[|s| - 1]);
    assert Strip(s) == s;
    if i < 0 {
      assert s[1..] == NatToString(-i);
      GroupsValueOfDigits(NatToString(-i));
    } else {
      GroupsValueOfDigits(NatToString(i));
    }
  }
}
